=== FILE: README.md ===
# Points-based corporate gifting: a Dafny model of its business logic

The application is a React front end that reads and writes a Firestore
database directly. It has three kinds of user:

- The gifting company's **admin** curates the product catalog, approves or
  rejects corporate clients, and moves orders through fulfilment.
- A **corporate** manages its employees and their points, and picks the
  catalog products its employees may see.
- An **employee** opens the corporate's company page, signs in, fills a cart
  and checks out. The checkout writes an order and debits the employee's points.

The repository carries two versions of the company page, and both are modelled:

- `project/src/pages/CompanySubPage.tsx` uses `companies` and `pointsBalance`.
  It is modelled in `project_storefront.dfy`.
- `src/pages/CompanySubPage.tsx` uses corporate `users` documents, `points` and
  a product snapshot in the order. It is modelled in `src_storefront.dfy`.

The other files are:

- `corporate_dashboard.dfy` and `admin_dashboard.dfy`: the two dashboards.
- `navbar.dfy`: the navigation bar's dashboard link.
- Shared modules:
  - `wrappers.dfy`: `Option`, `Result`.
  - `seqs.dfy`: `filter`, `reduce`, `find` and first-match lookups, with their laws.
  - `text.dfy`: the JavaScript `trim`, `toLowerCase`, `split` and `parseInt`.

How the model represents the system:

- A Firestore collection is a sequence of documents. A query's `docs[0]` is the
  first match.
- A write the database may reject is an explicit fault flag. An `updateDoc` on a
  document that does not exist is an error.
- `NaN` from `parseInt` is `None`. This holds in every module that reads or
  writes employee points: the corporate dashboard stores `NaN`, and the `src`
  storefront reads those same `employees` documents.
- Timestamps are integers.
- Every handler is a pure function from the store and the page state to the new
  store, the new page state and the error it reports.

## Model

| member | source | states |
|---|---|---|
| `Navbar.DashboardLink` | project/src/components/layout/Navbar.tsx:20-37 | The admin and corporate dashboards go to exactly those roles. An employee with a corporate gets `/company/<slug>`, or `/company/dashboard` without a slug. Everybody else gets `/`, in both directions of each case. |
| `Navbar.CompanyLinkNamesSlug` | project/src/components/layout/Navbar.tsx:28-31 | The slug can be read back from an employee's company link. |
| `ProjectStorefront.Find` | project/src/pages/CompanySubPage.tsx:496 | The first cart line for the product; none exactly when no line carries its id. |
| `ProjectStorefront.FindUnique` | project/src/pages/CompanySubPage.tsx:496 | In a valid cart the found line is the only line for that product. |
| `ProjectStorefront.UpdateLinesAt` | project/src/pages/CompanySubPage.tsx:498-502 | In a valid cart, the `map` over lines changes exactly the found line. |
| `ProjectStorefront.AddToCart` | project/src/pages/CompanySubPage.tsx:493-506 | Without an employee the cart is unchanged. A new product is appended with quantity 1. An existing line gains one unit and nothing else changes. One line per product is preserved. |
| `ProjectStorefront.RemoveFromCart` | project/src/pages/CompanySubPage.tsx:508-510 | No line for the product remains. The other lines keep their order. A missing product leaves the cart as it was. Validity is preserved. |
| `ProjectStorefront.UpdateCartQuantity` | project/src/pages/CompanySubPage.tsx:512-522 | A quantity of zero or less removes the line. A positive quantity replaces that line's quantity only. A product not in the cart changes nothing. |
| `ProjectStorefront.CartTotal` | project/src/pages/CompanySubPage.tsx:524-526 | An empty cart costs 0. Non-negative prices and quantities give a non-negative total. |
| `ProjectStorefront.TotalAfterAdd` | project/src/pages/CompanySubPage.tsx:493-506 | Adding raises the total by one unit of the line's stored product. |
| `ProjectStorefront.TotalAfterRemove` | project/src/pages/CompanySubPage.tsx:508-510 | Removing lowers the total by exactly that line's cost. |
| `ProjectStorefront.TotalAfterUpdate` | project/src/pages/CompanySubPage.tsx:512-522 | Setting a positive quantity moves the total by the difference of that one line. |
| `ProjectStorefront.BalanceOf` | project/src/pages/CompanySubPage.tsx:561 | An employee document's balance exists exactly when the document does. |
| `ProjectStorefront.BalanceAfterSet` | project/src/pages/CompanySubPage.tsx:561-564 | After the balance write, that employee reads back the new value and every other balance is unchanged. |
| `ProjectStorefront.Checkout` | project/src/pages/CompanySubPage.tsx:528-577 | Covers the code as written: the guards, address completeness (the incomplete-address error fires in both directions), and the insufficient check against the cached balance (both directions). Then the order write and the debit from the cached balance. A failed debit keeps the order. Success appends exactly one pending order for the cart and sets the balance to cached minus total, with other balances untouched. The cart is emptied. No faults means success. |
| `ProjectStorefront.CheckoutAtomic` | project/src/pages/CompanySubPage.tsx:538-564 | The corrected checkout reads the stored balance. Each error fires in both directions: an incomplete address, a missing employee document, a total above the stored balance. A transaction failure needs a fault. Every failure leaves the store and the page untouched. Success appends the order, debits exactly the total without going below zero, empties the cart and updates the page's balance. A complete, affordable checkout with no faults succeeds. |
| `ProjectStorefront.AtomicRunConserves` | project/src/pages/CompanySubPage.tsx:538-564 | Over any sequence of attempts by one employee from any number of tabs, the corrected checkout keeps the balance at 0 or above. The final balance plus the points of the new orders equals the starting balance. |
| `ProjectStorefront.StaleBalanceOverspends` | project/src/pages/CompanySubPage.tsx:538-564 | As written, two tabs loaded with 100 points each buy an 80-point cart. That orders 160 points and leaves a balance of 20. |
| `ProjectStorefront.AtomicRefusesSecondTab` | project/src/pages/CompanySubPage.tsx:538-564 | Corrected, the second tab is refused: 80 points ordered, 20 left. |
| `ProjectStorefront.FailedDebitKeepsOrder` | project/src/pages/CompanySubPage.tsx:558-564 | As written, a rejected debit leaves an 80-point order with the balance still at 100. |
| `ProjectStorefront.AtomicFailureWritesNothing` | project/src/pages/CompanySubPage.tsx:558-564 | Corrected, a failure of either the order write or the debit leaves the store exactly as it was. |
| `SrcStorefront.VisibleProducts` | src/pages/CompanySubPage.tsx:130-134 | A product is shown exactly when it is selected, active and in stock. |
| `SrcStorefront.VisibleKeepsOrder` | src/pages/CompanySubPage.tsx:130-134 | The filter commutes with concatenation, so catalog order is kept. |
| `SrcStorefront.SelectionExample` | src/pages/CompanySubPage.tsx:130-134 | Selection {p1, p3} over p1..p4 shows exactly [p1, p3]. |
| `SrcStorefront.CatalogFor` | src/pages/CompanySubPage.tsx:111-137 | There are no products without a settings document or with a missing or empty selection. Otherwise the first settings document's visible products are shown. |
| `SrcStorefront.LoadCompany` | src/pages/CompanySubPage.tsx:78-145 | Only the first corporate with the slug counts, as `docs[0]` does. "Company not found" is returned exactly when no corporate has the slug. "Not yet available" is returned exactly when that first corporate is not approved. Success happens exactly when it is approved, and shows that corporate with its catalog. |
| `SrcStorefront.Login` | src/pages/CompanySubPage.tsx:147-177 | Nothing happens exactly when the email is blank or no company is loaded. Otherwise the employee signed in is the first document of that corporate whose stored email is the typed one lower-cased and trimmed. "Not found" means no document matches. |
| `SrcStorefront.FindEmployee` | src/pages/CompanySubPage.tsx:152-170 | The employee query signs in the first matching document (`docs[0]`), or reports that none matches. |
| `SrcStorefront.LoginIgnoresLater` | src/pages/CompanySubPage.tsx:152-170 | Employee documents added later, such as a second upload of the same CSV, never change who signs in: the first matching document still wins. |
| `SrcStorefront.FindEmployeeIgnoresLater` | src/pages/CompanySubPage.tsx:152-170 | Appending employee documents after the first match leaves the query's answer unchanged. |
| `SrcStorefront.AddToCart` | src/pages/CompanySubPage.tsx:179-191 | A new product is appended with quantity 1. An existing line gains one unit. One line per product is preserved. |
| `SrcStorefront.UpdateCartQuantity` | src/pages/CompanySubPage.tsx:193-205 | A quantity of zero or less leaves no line for the product. A positive quantity replaces only that line's quantity. A product not in the cart changes nothing. |
| `SrcStorefront.TotalAfterUpdate` | src/pages/CompanySubPage.tsx:193-209 | A positive quantity replaces that line's cost in the total. Zero or less takes the line's cost off. A product not in the cart leaves the total as it was. |
| `SrcStorefront.CartTotal` | src/pages/CompanySubPage.tsx:207-209 | An empty cart costs 0. Non-negative costs and quantities give a non-negative total. |
| `SrcStorefront.Badge` | src/pages/CompanySubPage.tsx:335 | The badge is shown exactly for a non-empty cart, and never counts fewer units than lines. |
| `SrcStorefront.BadgeAfterAdd` | src/pages/CompanySubPage.tsx:179-191 | Adding a product shows one more unit on the badge. |
| `SrcStorefront.Minus` | src/pages/CompanySubPage.tsx:244 | `points - total` keeps `NaN` as `NaN`. A number minus the total, plus the total, gives the number back. |
| `SrcStorefront.GateAgreesWithCheckout` | src/pages/CompanySubPage.tsx:515-527 | For numeric points, the page offers "Proceed to Checkout" exactly when the handler does not refuse the cart for insufficient points. The handler's test is at src/pages/CompanySubPage.tsx:215-219. |
| `SrcStorefront.GateNeverOffersRefused` | src/pages/CompanySubPage.tsx:515-527 | Whatever the points, `NaN` included, the page never offers a checkout that the handler then refuses for insufficient points. The handler's test is at src/pages/CompanySubPage.tsx:215-219. |
| `SrcStorefront.NanPointsCheckoutAccepted` | src/pages/CompanySubPage.tsx:215-245 | With `NaN` points the gate and the handler disagree. The page hides checkout for any cart that costs something. The handler's `total > NaN` test passes, so it writes the order and stores `NaN` as the new points. The gate is at src/pages/CompanySubPage.tsx:515-527. |
| `SrcStorefront.OrderLines` | src/pages/CompanySubPage.tsx:229-234 | The order keeps one line per cart line, with the product's id, name, cost and the quantity. |
| `SrcStorefront.OrderLinesTotal` | src/pages/CompanySubPage.tsx:229-236 | The order's lines add up to the recorded total. |
| `SrcStorefront.NewOrder` | src/pages/CompanySubPage.tsx:223-239 | The written order's total equals the sum of its own lines. |
| `SrcStorefront.PointsAfterSet` | src/pages/CompanySubPage.tsx:242-245 | After the points write, that employee reads back the new value, `NaN` included. |
| `SrcStorefront.SetPointsFrame` | src/pages/CompanySubPage.tsx:242-245 | The points write touches only the documents with that id, and only their points. Every other employee reads back the same points as before. |
| `SrcStorefront.Commit` | src/pages/CompanySubPage.tsx:221-248 | A successful checkout appends the order and gives the employee the new points, and changes nothing else in the store. Other employees, users, settings and products stay as they were. The page's cart empties and its copy of the employee gets the new points. |
| `SrcStorefront.Checkout` | src/pages/CompanySubPage.tsx:211-259 | Covers the code as written. Without an employee or company nothing happens. "Insufficient points" is returned exactly when the cached points are a number below the total, so `NaN` points never fail the test. A failed points write keeps the order. Success appends one pending order with the cart snapshot and total, and sets points to cached minus total: at least 0 for a number, `NaN` for `NaN`. The cart is emptied. No faults means success. On success nothing else in the store changes: the other employees, users, settings and products are kept. |
| `SrcStorefront.CheckoutAtomic` | src/pages/CompanySubPage.tsx:215-248 | The corrected checkout reads the stored points. Each refusal fires in both directions: a missing document, stored `NaN`, a total above the stored points. Every failure leaves the store and the page untouched. Success appends the order and stores exactly the points minus the total, never below zero. An affordable checkout with no faults succeeds. On success nothing else in the store changes: the other employees, users, settings and products are kept. |
| `SrcStorefront.AtomicConserves` | src/pages/CompanySubPage.tsx:215-248 | For any attempt, whatever the page believes and whichever write fails, the corrected checkout keeps a non-negative stored balance non-negative. The points left plus the points of the new orders equal the points before. Every other employee keeps their points. |
| `SrcStorefront.StaleBalanceOverspends` | src/pages/CompanySubPage.tsx:215-245 | As written, two tabs loaded with 100 points each buy an 80-point cart. Both succeed, 160 points are ordered and the stored points read 20. |
| `SrcStorefront.AtomicRefusesSecondTab` | src/pages/CompanySubPage.tsx:215-245 | Corrected, the second tab is refused for insufficient points: one order, 20 left. |
| `SrcStorefront.FailedDebitKeepsOrder` | src/pages/CompanySubPage.tsx:221-245 | As written, a rejected points write leaves an 80-point order with the points still at 100. |
| `SrcStorefront.AtomicFailureWritesNothing` | src/pages/CompanySubPage.tsx:221-245 | Corrected, a failure of either the order write or the points write leaves the store exactly as it was. |
| `SrcStorefront.AtomicRefusesNanPoints` | src/pages/CompanySubPage.tsx:215-245 | The corrected checkout refuses stored `NaN` points and writes nothing. |
| `CorporateDashboard.Fields` | project/src/pages/dashboards/CorporateDashboard.tsx:153 | Splitting on commas and trimming gives at least one field, each with no white space at either end. |
| `CorporateDashboard.Accept` | project/src/pages/dashboards/CorporateDashboard.tsx:153-163 | A line is kept exactly when it has an email and a name that are both non-empty. The record is active, belongs to the uploader's corporate and carries the email and name. Its points are `parseInt` of the third field when there is one, so an empty third field gives `NaN`, and `parseInt("100")` for a two-field line. |
| `CorporateDashboard.AcceptIgnoresExtra` | project/src/pages/dashboards/CorporateDashboard.tsx:153 | Fields after the third are ignored: appending any fields to a line of three or more leaves its record unchanged. |
| `CorporateDashboard.EmptyPointsIsNaN` | project/src/pages/dashboards/CorporateDashboard.tsx:153-158 | The `'100'` default applies only to a missing third field. An empty one is parsed and stores `NaN`. |
| `CorporateDashboard.ParseLine` | project/src/pages/dashboards/CorporateDashboard.tsx:152-164 | An accepted line's email and name are trimmed. |
| `CorporateDashboard.ParseLinesAppend` | project/src/pages/dashboards/CorporateDashboard.tsx:149-165 | Lines are parsed independently, and the batch keeps their order. |
| `CorporateDashboard.ParseBulk` | project/src/pages/dashboards/CorporateDashboard.tsx:145-149 | Blank input uploads nothing at all, and only blank input does. |
| `CorporateDashboard.BulkUpload` | project/src/pages/dashboards/CorporateDashboard.tsx:145-176 | What is written is always a prefix of the batch. It is the whole batch when no write fails and stops at the first failed write. |
| `CorporateDashboard.BlankLineSkipped` | project/src/pages/dashboards/CorporateDashboard.tsx:153-154 | A line of white space adds nobody. |
| `CorporateDashboard.PointsText` | project/src/pages/dashboards/CorporateDashboard.tsx:158 | The CSV rendering of any points value, `NaN` included, is read back by `parseInt` as that value. |
| `CorporateDashboard.LineRoundTrip` | project/src/pages/dashboards/CorporateDashboard.tsx:152-164 | The line `email,name,points` parses back to its employee document. |
| `CorporateDashboard.BulkRoundTrip` | project/src/pages/dashboards/CorporateDashboard.tsx:145-165 | Pasting the CSV rendering of a non-empty batch uploads exactly that batch. |
| `CorporateDashboard.DefaultPoints` | project/src/pages/dashboards/CorporateDashboard.tsx:153 | A two-field line gets 100 points. |
| `CorporateDashboard.FormAgreesWithBulk` | project/src/pages/dashboards/CorporateDashboard.tsx:122-163 | The single-employee form and a CSV line with the same data write the same document. |
| `CorporateDashboard.Toggle` | project/src/pages/dashboards/CorporateDashboard.tsx:178-181 | Ticking appends the product. Unticking removes every occurrence of it and keeps every other selected product. |
| `CorporateDashboard.UntickKeepsOrder` | project/src/pages/dashboards/CorporateDashboard.tsx:179-181 | Unticking distributes over concatenation, so the other ids keep their order. |
| `CorporateDashboard.UntickSingle` | project/src/pages/dashboards/CorporateDashboard.tsx:179-181 | On a one-id selection, unticking drops exactly that id and keeps any other. |
| `CorporateDashboard.UntickUndoesTick` | project/src/pages/dashboards/CorporateDashboard.tsx:178-181 | Unticking after ticking is the same as unticking alone. Unticking an unselected product changes nothing. |
| `CorporateDashboard.LoadSelection` | project/src/pages/dashboards/CorporateDashboard.tsx:106-113 | A corporate without a settings document loads an empty selection. |
| `CorporateDashboard.SaveSelection` | project/src/pages/dashboards/CorporateDashboard.tsx:183-207 | The write either keeps the number of settings documents or appends one for this corporate. It never changes which corporate a document belongs to. |
| `CorporateDashboard.SaveThenLoad` | project/src/pages/dashboards/CorporateDashboard.tsx:106-113 | The dashboard loads back exactly the selection it saved. |
| `CorporateDashboard.SaveKeepsOthers` | project/src/pages/dashboards/CorporateDashboard.tsx:183-207 | Saving one corporate's selection leaves every other corporate's selection as it was. |
| `CorporateDashboard.StorefrontShowsSaved` | project/src/pages/dashboards/CorporateDashboard.tsx:178-207 | After a save, the corporate's storefront shows exactly the visible products of the saved selection. |
| `CorporateDashboard.PointsTotal` | project/src/pages/dashboards/CorporateDashboard.tsx:241-246 | The allocated total is `NaN` exactly when some employee's points are `NaN`, and otherwise the sum. |
| `CorporateDashboard.UpdateEmployeePoints` | project/src/pages/dashboards/CorporateDashboard.tsx:221-231 | The employee's points are overwritten with any value, negative or `NaN` included. Nothing else changes. A missing document is an error, and only then. |
| `CorporateDashboard.TotalAfterUpdate` | project/src/pages/dashboards/CorporateDashboard.tsx:221-246 | Overwriting one employee's points moves the allocated total by the difference. A `NaN` write turns the total into `NaN`. |
| `AdminDashboard.Corporates` | project/src/pages/dashboards/AdminDashboard.tsx:97-104 | The corporate list contains exactly the users whose role is corporate. |
| `AdminDashboard.CountStatusOfUsers` | project/src/pages/dashboards/AdminDashboard.tsx:192-197 | A status count over the corporate list equals the count of corporate users with that status. |
| `AdminDashboard.DecisionActions` | project/src/pages/dashboards/AdminDashboard.tsx:532-547 | Buttons appear exactly while the corporate is pending. Then both approve and reject are shown, each once. |
| `AdminDashboard.ApplyDecision` | project/src/pages/dashboards/AdminDashboard.tsx:166-173 | Only the status of that user changes, to approved or rejected. A missing document is an error, and only then. |
| `AdminDashboard.ApprovalMovesCounts` | project/src/pages/dashboards/AdminDashboard.tsx:166-197 | Approving a pending corporate adds one to the approved-corporates figure, removes one from the pending figure and hides its buttons. |
| `AdminDashboard.DecisionGatesStorefront` | project/src/pages/dashboards/AdminDashboard.tsx:166-173 | When the corporate is the first with its slug, its storefront loads after approval and says "not yet available" after rejection. |
| `AdminDashboard.LowStock` | project/src/pages/dashboards/AdminDashboard.tsx:301 | The panel shows the first five of the products with fewer than ten in stock, in catalog order, or all of them when there are fewer. |
| `AdminDashboard.LowStockIgnoresLater` | project/src/pages/dashboards/AdminDashboard.tsx:301 | Once five low-stock products are listed, products after them never reach the panel. |
| `AdminDashboard.RecentOrders` | project/src/pages/dashboards/AdminDashboard.tsx:279 | The panel shows the first five orders as loaded, or all orders when there are fewer. |
| `AdminDashboard.RecentOrdersIgnoreDates` | project/src/pages/dashboards/AdminDashboard.tsx:279 | With six orders loaded oldest first, the newest is not shown. |
| `AdminDashboard.RecentOrdersIgnoreLater` | project/src/pages/dashboards/AdminDashboard.tsx:279 | Once five orders are loaded, orders after them never reach the panel, whatever their dates. |
| `AdminDashboard.OrdersOf` | project/src/pages/dashboards/AdminDashboard.tsx:574 | Contains exactly the orders whose corporate id is the corporate's. |
| `AdminDashboard.Latest` | project/src/pages/dashboards/AdminDashboard.tsx:579 | Picks the order a stable newest-first sort puts first: the latest timestamp, earliest among ties. |
| `AdminDashboard.Summary` | project/src/pages/dashboards/AdminDashboard.tsx:573-581 | There is no card exactly when the corporate has no orders. A card counts the corporate's orders, sums their points and shows its latest order. |
| `AdminDashboard.RollupPoints` | project/src/pages/dashboards/AdminDashboard.tsx:573-581 | With distinct corporate ids, the cards' points add up to the points of exactly the orders of listed corporates, each counted once. |
| `AdminDashboard.RollupStep` | project/src/pages/dashboards/AdminDashboard.tsx:573-581 | One more corporate adds exactly its own orders' points, whether or not it gets a card. |
| `AdminDashboard.UpdateOrderStatus` | project/src/pages/dashboards/AdminDashboard.tsx:175-182 | As written, the order takes any chosen status and only its status changes. A missing document is an error. |
| `AdminDashboard.StatusEditKeepsRollup` | project/src/pages/dashboards/AdminDashboard.tsx:175-182 | Status edits never change a corporate's order count or points. |
| `AdminDashboard.StatusCanMoveBackward` | project/src/pages/dashboards/AdminDashboard.tsx:709-718 | A delivered order can be set back to pending. |
| `AdminDashboard.AdvanceOrderStatus` | project/src/pages/dashboards/AdminDashboard.tsx:175-182 | The corrected edit accepts exactly the moves of an existing order to a listed status no earlier than its current one. It writes that status to that order alone and keeps ids and every other field. No order's rank decreases. A missing order is an error, and only then. |
| `AdminDashboard.AdvanceAgreesOnForward` | project/src/pages/dashboards/AdminDashboard.tsx:175-182 | On every forward move the corrected edit accepts and writes exactly what the original does. It refuses every other move the original accepts. |
| `AdminDashboard.AdvanceRefusesBackward` | project/src/pages/dashboards/AdminDashboard.tsx:709-718 | The corrected edit refuses the delivered-to-pending move. |
| `AdminDashboard.AddProduct` | project/src/pages/dashboards/AdminDashboard.tsx:113-135 | Exactly one product is appended, active, carrying the form's fields. |
| `AdminDashboard.AddedProductVisibility` | project/src/pages/dashboards/AdminDashboard.tsx:113-135 | A new product reaches a storefront exactly when it is selected and in stock. |
| `AdminDashboard.UpdateProduct` | project/src/pages/dashboards/AdminDashboard.tsx:137-153 | The product gets the form's six fields and keeps its id and status. Other products are unchanged. A missing document is an error. |
| `AdminDashboard.EditWithoutChangesKeepsCatalog` | project/src/pages/dashboards/AdminDashboard.tsx:429-439 | Saving the Edit form unchanged leaves the catalog as it was. |
| `Text.Trim` | project/src/pages/dashboards/CorporateDashboard.tsx:146 | The result has no white space at either end. It is a slice of the input with only white space cut off. It is empty exactly for blank input. |
| `Text.ParseShowInt` | project/src/pages/dashboards/CorporateDashboard.tsx:158 | `parseInt` reads back the decimal rendering of any integer. |
| `Text.SplitJoin` | project/src/pages/dashboards/CorporateDashboard.tsx:149 | Pieces free of the separator, once joined, split back into themselves. |
| `Text.JoinSplit` | project/src/pages/dashboards/CorporateDashboard.tsx:149 | Joining the pieces of a split restores the input. |

## Left out

- Firestore and Firebase Auth themselves:
  - Network access, read failures and their catch-all messages are not modelled.
  - Loading states, `alert` and rendering are not modelled.
  - Queries are first-match lookups over sequences, in the sequence's order.
- `project/src/pages/CompanySubPage.tsx` beyond the cart and checkout is not modelled:
  - `loadCompanyData`, `loadEmployeeData` and `handleEmployeeAuth` (the Firebase Auth sign-in).
  - Saved addresses and the country picker.
- Branding settings are not modelled.
- `handleDeleteEmployee` and `handleDeleteProduct` are not modelled. They depend on `window.confirm`.
- Timestamps are plain integers, and a server timestamp is an argument. The ISO strings the dashboards write are opaque strings.
- CorporateDashboard.AddEmployee: one `createdAt` stands for the whole bulk upload. The source stamps each line with its own `new Date().toISOString()` (project/src/pages/dashboards/CorporateDashboard.tsx:162), so the model does not separate the records by time.
- Sequence order stands in for the order of `getDocs` results. New documents (`AddProduct`, `OrderAppended`, `AddEmployee`) go at the end, and "first as loaded" (`RecentOrders`, `LowStock`, `docs[0]`) reads that order. Firestore returns an unordered query by document id, and `addDoc` ids are random, so the real panels show an arbitrary rather than the oldest five.
- The admin product form's `parseInt` can produce `NaN`. `ProductForm` has integer fields, so that case is not modelled.
- Product stock is always present. The code hides a product without stock, because `undefined > 0` is false.
- The per-product "Insufficient Points" button (src/pages/CompanySubPage.tsx:432) is not modelled. It is a display gate only; `SrcStorefront.CanProceed` covers the total.
- `DashboardStats` and `AdminStats` compute the overview figures without a contract of their own. Their content is stated by `PointsTotal`, `CountStatusOfUsers` and `ApprovalMovesCounts`.
- The project storefront writes orders with `companyId` (project/src/pages/CompanySubPage.tsx:547). Both dashboards read `corporateId`, so those orders fall in no corporate's figures. The admin model reads the order shape the `src` storefront writes.
- Text.ParseInt: does not model the `0x` hexadecimal prefix or the loss of precision above 2^53.
- Text.ToLower: lower-cases ASCII letters only.
- CorporateDashboard.BulkUpload: takes the signed-in corporate as given. The `currentUser?.uid` undefined case is not modelled.
- CorporateDashboard.BulkRoundTrip: covers only emails and names that are non-empty, trimmed, and free of commas and line breaks. No other field can survive the CSV format.

## Findings

| source | as written | input that shows it | evidently intended | confidence | as-written member | corrected member |
|---|---|---|---|---|---|---|
| project/src/pages/CompanySubPage.tsx:538-564 | The guard and the debit use the balance the page loaded at sign-in, and the debit writes `cached - total` | Two tabs of one employee with 100 points each check out an 80-point cart: 160 points are ordered and the balance reads 20 | An employee never orders more points than the balance holds | high (not executed) | `ProjectStorefront.Checkout`, `ProjectStorefront.StaleBalanceOverspends` | `ProjectStorefront.CheckoutAtomic`, `ProjectStorefront.AtomicRunConserves` |
| project/src/pages/CompanySubPage.tsx:558-564 | The order is written first and the debit second, with nothing undoing the order when the debit fails | The debit write is rejected: an 80-point order exists and the balance still reads 100 | The order and the debit happen together or not at all | high (not executed) | `ProjectStorefront.Checkout`, `ProjectStorefront.FailedDebitKeepsOrder` | `ProjectStorefront.CheckoutAtomic`, `ProjectStorefront.AtomicFailureWritesNothing` |
| project/src/pages/dashboards/AdminDashboard.tsx:175-182 | The status select writes any of the four statuses whatever the order's current one | A delivered order set to "pending" is accepted | Fulfilment only moves forward: pending, processing, shipped, delivered | medium (not executed) | `AdminDashboard.UpdateOrderStatus`, `AdminDashboard.StatusCanMoveBackward` | `AdminDashboard.AdvanceOrderStatus`, `AdminDashboard.AdvanceRefusesBackward` |
| src/pages/CompanySubPage.tsx:215-245 | The guard and the points write use the points the page loaded at sign-in, and the write stores `cached - total` | Two tabs of one employee with 100 points each check out an 80-point cart: 160 points are ordered and the points read 20 | An employee never orders more points than the balance holds | high (not executed) | `SrcStorefront.Checkout`, `SrcStorefront.StaleBalanceOverspends` | `SrcStorefront.CheckoutAtomic`, `SrcStorefront.AtomicConserves` |
| src/pages/CompanySubPage.tsx:221-245 | The order is written first and the points second, with nothing undoing the order when the points write fails | The points write is rejected: an 80-point order exists and the points still read 100 | The order and the debit happen together or not at all | high (not executed) | `SrcStorefront.Checkout`, `SrcStorefront.FailedDebitKeepsOrder` | `SrcStorefront.CheckoutAtomic`, `SrcStorefront.AtomicFailureWritesNothing` |


=== FILE: admin_dashboard.dfy ===
/** The administrator's dashboard of `project/`: the corporate list and its
    approval buttons, the overview figures and alerts, the per-corporate order
    rollup, order status edits, and adding and editing catalog products. It reads
    the same `users`, `products` and `orders` collections as the storefront. */
module AdminDashboard {
  import opened Wrappers
  import Seqs
  import SrcStorefront

  type User = SrcStorefront.User
  type Product = SrcStorefront.Product

  /** An `orders` document with its id. */
  datatype OrderDoc = OrderDoc(id: string, order: SrcStorefront.Order)

  datatype WriteError = NoSuchDocument

  // ------------------------------------------------------------------------ corporates

  predicate IsCorporate(u: User) {
    u.role == "corporate"
  }

  /** The corporate list: the `users` documents whose role is corporate, in order. */
  function Corporates(users: seq<User>): (r: seq<User>)
    ensures forall i :: 0 <= i < |r| ==> r[i] in users && IsCorporate(r[i])
    ensures forall i :: 0 <= i < |users| && IsCorporate(users[i]) ==> users[i] in r
  {
    Seqs.FilterMembers(users, IsCorporate);
    Seqs.Filter(users, IsCorporate)
  }

  predicate HasStatus(u: User, status: string) {
    u.status == status
  }

  /** The number of corporates with the status. */
  function CountStatus(corporates: seq<User>, status: string): nat {
    |Seqs.Filter(corporates, (u: User) => HasStatus(u, status))|
  }

  datatype Stats = Stats(totalOrders: nat, totalCorporates: nat, totalProducts: nat, pendingApprovals: nat)

  /** The overview figures; "corporates" counts only the approved ones. */
  function AdminStats(users: seq<User>, orders: seq<OrderDoc>, products: seq<Product>): Stats {
    var cs := Corporates(users);
    Stats(|orders|, CountStatus(cs, "approved"), |products|, CountStatus(cs, "pending"))
  }

  predicate CorporateWithStatus(u: User, status: string) {
    IsCorporate(u) && HasStatus(u, status)
  }

  /** Counting a status among the corporates is counting corporate users with it. */
  lemma {:induction false} CountStatusOfUsers(users: seq<User>, status: string)
    ensures CountStatus(Corporates(users), status) ==
      |Seqs.Filter(users, (u: User) => CorporateWithStatus(u, status))|
  {
    Seqs.FilterFilter(users, IsCorporate, (u: User) => HasStatus(u, status),
                      (u: User) => CorporateWithStatus(u, status));
  }

  datatype Decision = Approve | Reject

  function StatusOf(d: Decision): string {
    match d
    case Approve => "approved"
    case Reject => "rejected"
  }

  /** The buttons next to a corporate: approve and reject while it is pending,
      none otherwise. */
  function DecisionActions(c: User): (r: seq<Decision>)
    ensures |r| > 0 <==> c.status == "pending"
    ensures c.status == "pending" ==> Approve in r && Reject in r
    ensures forall i, j :: 0 <= i < j < |r| ==> r[i] != r[j]
  {
    if c.status == "pending" then [Approve, Reject] else []
  }

  /** `handleApproveCorporate`: the user document `id` gets the decision's status
      and nothing else changes; the write fails when there is no such document. */
  function ApplyDecision(users: seq<User>, id: string, d: Decision): (r: Result<seq<User>, WriteError>)
    ensures r.Err? <==> forall i :: 0 <= i < |users| ==> users[i].id != id
    ensures r.Ok? ==> |r.value| == |users| && forall i :: 0 <= i < |users| ==>
      && r.value[i].(status := users[i].status) == users[i]
      && (users[i].id == id ==> r.value[i].status == StatusOf(d))
      && (users[i].id != id ==> r.value[i] == users[i])
  {
    if forall i :: 0 <= i < |users| ==> users[i].id != id then Err(NoSuchDocument)
    else Ok(seq(|users|, i requires 0 <= i < |users| =>
      if users[i].id == id then users[i].(status := StatusOf(d)) else users[i]))
  }

  predicate UniqueUserIds(users: seq<User>) {
    forall i, j :: 0 <= i < j < |users| ==> users[i].id != users[j].id
  }

  lemma {:induction false} DecisionAt(users: seq<User>, k: nat, d: Decision)
    requires k < |users| && UniqueUserIds(users)
    ensures ApplyDecision(users, users[k].id, d) == Ok(users[k := users[k].(status := StatusOf(d))])
  {
    var r := ApplyDecision(users, users[k].id, d).value;
    assert forall i :: 0 <= i < |users| && i != k ==> users[i].id != users[k].id;
    assert r == users[k := users[k].(status := StatusOf(d))];
  }

  /** Approving a pending corporate moves it from the pending figure to the
      approved one and takes its buttons away. */
  lemma {:induction false} ApprovalMovesCounts(users: seq<User>, k: nat)
    requires k < |users| && UniqueUserIds(users)
    requires IsCorporate(users[k]) && users[k].status == "pending"
    ensures var after := ApplyDecision(users, users[k].id, Approve).value;
      && AdminStats(after, [], []).totalCorporates == AdminStats(users, [], []).totalCorporates + 1
      && AdminStats(after, [], []).pendingApprovals + 1 == AdminStats(users, [], []).pendingApprovals
      && DecisionActions(after[k]) == []
  {
    var x := users[k].(status := "approved");
    DecisionAt(users, k, Approve);
    var after := users[k := x];
    CountStatusOfUsers(users, "approved");
    CountStatusOfUsers(after, "approved");
    CountStatusOfUsers(users, "pending");
    CountStatusOfUsers(after, "pending");
    Seqs.FilterCountUpdate(users, k, x, (u: User) => CorporateWithStatus(u, "approved"));
    Seqs.FilterCountUpdate(users, k, x, (u: User) => CorporateWithStatus(u, "pending"));
  }

  /** Once approved, the corporate's storefront opens; once rejected, it shows
      "not yet available". */
  lemma {:induction false} DecisionGatesStorefront(st: SrcStorefront.Store, k: nat, d: Decision)
    requires k < |st.users| && UniqueUserIds(st.users)
    requires forall j :: 0 <= j < k ==> !SrcStorefront.IsCorporateWithSlug(st.users[j], st.users[k].slug)
    requires IsCorporate(st.users[k])
    ensures var after := st.(users := ApplyDecision(st.users, st.users[k].id, d).value);
      var page := SrcStorefront.LoadCompany(after, st.users[k].slug);
      && (d == Approve ==> page.Ok? && page.value.corporate.id == st.users[k].id)
      && (d == Reject ==> page == Err(SrcStorefront.NotYetAvailable))
  {
    DecisionAt(st.users, k, d);
    var users := st.users[k := st.users[k].(status := StatusOf(d))];
    var slug := st.users[k].slug;
    var p := SrcStorefront.CorporateWithSlug(slug);
    assert p(users[k]);
    assert forall j :: 0 <= j < k ==> users[j] == st.users[j];
    assert Seqs.FindIndex(users, p) == Some(k);
  }

  // ----------------------------------------------------------------- overview panels

  /** A product the "Low Stock Alerts" panel flags. */
  predicate IsLow(p: Product) {
    p.stock < 10
  }

  /** The "Low Stock Alerts" panel: the first five products with fewer than ten
      in stock, in catalog order. */
  function LowStock(products: seq<Product>): (r: seq<Product>)
    ensures var low := Seqs.Filter(products, IsLow);
      && |r| == (if |low| < 5 then |low| else 5)
      && r == low[..|r|]
    ensures forall i :: 0 <= i < |r| ==> r[i] in products && IsLow(r[i])
    ensures |Seqs.Filter(products, IsLow)| <= 5 ==>
      forall i :: 0 <= i < |products| && IsLow(products[i]) ==> products[i] in r
  {
    var low := Seqs.Filter(products, IsLow);
    Seqs.FilterMembers(products, IsLow);
    if |low| <= 5 then low else low[..5]
  }

  /** Once the catalog has five low-stock products, products added after them never
      reach the panel. */
  lemma {:induction false} LowStockIgnoresLater(a: seq<Product>, b: seq<Product>)
    requires |Seqs.Filter(a, IsLow)| >= 5
    ensures LowStock(a + b) == LowStock(a)
  {
    Seqs.FilterAppend(a, b, IsLow);
    var la, lb := Seqs.Filter(a, IsLow), Seqs.Filter(b, IsLow);
    assert (la + lb)[..5] == la[..5];
  }

  /** The "Recent Orders" panel: the first five orders as loaded. */
  function RecentOrders(orders: seq<OrderDoc>): (r: seq<OrderDoc>)
    ensures |r| == if |orders| < 5 then |orders| else 5
    ensures r == orders[..|r|]
  {
    if |orders| < 5 then orders else orders[..5]
  }

  /** Once five orders are loaded, orders that come after them never reach the panel. */
  lemma {:induction false} RecentOrdersIgnoreLater(a: seq<OrderDoc>, b: seq<OrderDoc>)
    requires |a| >= 5
    ensures RecentOrders(a + b) == RecentOrders(a)
  {
    assert (a + b)[..5] == a[..5];
  }

  /** The panel does not sort by date: with six orders loaded oldest first, the
      newest one is not shown. */
  lemma {:induction false} RecentOrdersIgnoreDates(o: SrcStorefront.Order)
    ensures var orders := seq(6, i => OrderDoc("o", o.(createdAt := i)));
      orders[5] !in RecentOrders(orders)
  {
    var orders := seq(6, i => OrderDoc("o", o.(createdAt := i)));
    var r := RecentOrders(orders);
    assert forall i :: 0 <= i < |r| ==> r[i].order.createdAt < 5;
  }

  // ---------------------------------------------------------------- orders by corporate

  function OrderPoints(o: OrderDoc): int {
    o.order.totalPoints
  }

  function OrdersOf(orders: seq<OrderDoc>, corporateId: string): (r: seq<OrderDoc>)
    ensures forall i :: 0 <= i < |r| ==> r[i] in orders && r[i].order.corporateId == corporateId
    ensures forall i :: 0 <= i < |orders| && orders[i].order.corporateId == corporateId ==> orders[i] in r
  {
    var mine := (o: OrderDoc) => o.order.corporateId == corporateId;
    Seqs.FilterMembers(orders, mine);
    Seqs.Filter(orders, mine)
  }

  /** The order a stable newest-first sort puts first: the earliest of those with
      the latest timestamp. */
  function Latest(os: seq<OrderDoc>): (k: nat)
    requires |os| > 0
    ensures k < |os|
    ensures forall j :: 0 <= j < |os| ==> os[j].order.createdAt <= os[k].order.createdAt
    ensures forall j :: 0 <= j < k ==> os[j].order.createdAt < os[k].order.createdAt
  {
    if |os| == 1 then 0
    else
      var k := Latest(os[1..]) + 1;
      if os[0].order.createdAt >= os[k].order.createdAt then 0 else k
  }

  datatype CorporateSummary = CorporateSummary(
    corporate: User, orderCount: nat, totalPoints: int, recentOrder: OrderDoc)

  /** One card of "Orders by Corporate", or none for a corporate without orders. */
  function Summary(c: User, orders: seq<OrderDoc>): (r: Option<CorporateSummary>)
    ensures r.None? <==> forall i :: 0 <= i < |orders| ==> orders[i].order.corporateId != c.id
    ensures r.Some? ==>
      && r.value.corporate == c
      && r.value.orderCount == |OrdersOf(orders, c.id)| > 0
      && r.value.totalPoints == Seqs.Sum(OrdersOf(orders, c.id), OrderPoints)
      && r.value.recentOrder in orders && r.value.recentOrder.order.corporateId == c.id
      && forall i :: 0 <= i < |orders| && orders[i].order.corporateId == c.id ==>
           orders[i].order.createdAt <= r.value.recentOrder.order.createdAt
  {
    var os := OrdersOf(orders, c.id);
    Seqs.FilterEmptyIff(orders, (o: OrderDoc) => o.order.corporateId == c.id);
    if |os| == 0 then None
    else
      var latest := os[Latest(os)];
      assert forall i :: 0 <= i < |orders| && orders[i].order.corporateId == c.id ==>
        orders[i].order.createdAt <= latest.order.createdAt by {
        forall i | 0 <= i < |orders| && orders[i].order.corporateId == c.id
          ensures orders[i].order.createdAt <= latest.order.createdAt
        {
          assert orders[i] in os;
        }
      }
      Some(CorporateSummary(c, |os|, Seqs.Sum(os, OrderPoints), latest))
  }

  /** `CorporateOrdersOverview`: the cards of the corporates that have orders, in
      the corporate list's order. */
  function Rollup(corporates: seq<User>, orders: seq<OrderDoc>): (r: seq<CorporateSummary>)
    ensures |r| <= |corporates|
  {
    Seqs.FilterMap(corporates, (c: User) => Summary(c, orders))
  }

  function SummaryPoints(s: CorporateSummary): int {
    s.totalPoints
  }

  function Ids(corporates: seq<User>): (r: seq<string>)
    ensures |r| == |corporates|
    ensures forall i :: 0 <= i < |r| ==> r[i] == corporates[i].id
  {
    seq(|corporates|, i requires 0 <= i < |corporates| => corporates[i].id)
  }

  predicate BelongsTo(o: OrderDoc, ids: seq<string>) {
    o.order.corporateId in ids
  }

  /** The cards account for every order of a listed corporate exactly once: their
      points add up to the points of exactly those orders. */
  lemma {:induction false} RollupPoints(corporates: seq<User>, orders: seq<OrderDoc>)
    requires UniqueUserIds(corporates)
    ensures Seqs.Sum(Rollup(corporates, orders), SummaryPoints) ==
      Seqs.Sum(Seqs.Filter(orders, (o: OrderDoc) => BelongsTo(o, Ids(corporates))), OrderPoints)
  {
    var ids := Ids(corporates);
    var belongs := (o: OrderDoc) => BelongsTo(o, ids);
    if |corporates| == 0 {
      Seqs.FilterNone(orders, belongs);
    } else {
      var c, rest := corporates[0], corporates[1..];
      var restIds := Ids(rest);
      assert ids == [c.id] + restIds;
      RollupPoints(rest, orders);
      var mine := (o: OrderDoc) => o.order.corporateId == c.id;
      var others := (o: OrderDoc) => BelongsTo(o, restIds);
      HeadIdNotInRest(corporates);
      Seqs.SumFilterOr(orders, belongs, mine, others, OrderPoints);
      RollupStep(c, rest, orders);
    }
  }

  /** With unique ids, the first corporate's id is not among the others'. */
  lemma {:induction false} HeadIdNotInRest(corporates: seq<User>)
    requires |corporates| > 0 && UniqueUserIds(corporates)
    ensures corporates[0].id !in Ids(corporates[1..])
  {
    var rest := corporates[1..];
    forall i | 0 <= i < |rest| ensures Ids(rest)[i] != corporates[0].id {
      assert rest[i] == corporates[i + 1];
    }
  }

  lemma {:induction false} RollupStep(c: User, rest: seq<User>, orders: seq<OrderDoc>)
    ensures Seqs.Sum(Rollup([c] + rest, orders), SummaryPoints) ==
      Seqs.Sum(OrdersOf(orders, c.id), OrderPoints) + Seqs.Sum(Rollup(rest, orders), SummaryPoints)
  {
    var cs := [c] + rest;
    assert cs[0] == c && cs[1..] == rest;
    match Summary(c, orders)
    case None =>
      Seqs.FilterNone(orders, (o: OrderDoc) => o.order.corporateId == c.id);
    case Some(s) =>
  }

  // ---------------------------------------------------------------- order status

  /** The statuses the status select offers. */
  const Statuses: seq<string> := ["pending", "processing", "shipped", "delivered"]

  function SetStatus(orders: seq<OrderDoc>, id: string, status: string): (r: seq<OrderDoc>)
    ensures |r| == |orders|
  {
    seq(|orders|, i requires 0 <= i < |orders| =>
      if orders[i].id == id then orders[i].(order := orders[i].order.(status := status)) else orders[i])
  }

  /** `handleUpdateOrderStatus` as written: the order `id` takes whatever status
      was chosen, with no regard for the one it has; only the status changes. */
  function UpdateOrderStatus(orders: seq<OrderDoc>, id: string, status: string): (r: Result<seq<OrderDoc>, WriteError>)
    ensures r.Err? <==> forall i :: 0 <= i < |orders| ==> orders[i].id != id
    ensures r.Ok? ==> |r.value| == |orders| && forall i :: 0 <= i < |orders| ==>
      && r.value[i].id == orders[i].id
      && r.value[i].order.(status := orders[i].order.status) == orders[i].order
      && (orders[i].id == id ==> r.value[i].order.status == status)
      && (orders[i].id != id ==> r.value[i] == orders[i])
  {
    if forall i :: 0 <= i < |orders| ==> orders[i].id != id then Err(NoSuchDocument)
    else Ok(SetStatus(orders, id, status))
  }

  /** Editing statuses never changes any corporate's order count or points. */
  lemma {:induction false} StatusEditKeepsRollup(orders: seq<OrderDoc>, id: string, status: string, c: User)
    requires UpdateOrderStatus(orders, id, status).Ok?
    ensures var after := UpdateOrderStatus(orders, id, status).value;
      && |OrdersOf(after, c.id)| == |OrdersOf(orders, c.id)|
      && Seqs.Sum(OrdersOf(after, c.id), OrderPoints) == Seqs.Sum(OrdersOf(orders, c.id), OrderPoints)
  {
    var after := UpdateOrderStatus(orders, id, status).value;
    Seqs.FilterSumAgree(after, orders, (o: OrderDoc) => o.order.corporateId == c.id, OrderPoints);
  }

  /** The position of a status in the fulfilment sequence; -1 for anything else. */
  function Rank(status: string): int {
    if status == "pending" then 0
    else if status == "processing" then 1
    else if status == "shipped" then 2
    else if status == "delivered" then 3
    else -1
  }

  /** As written, a delivered order can be put back to pending. */
  lemma {:induction false} StatusCanMoveBackward(o: SrcStorefront.Order)
    requires o.status == "delivered"
    ensures var r := UpdateOrderStatus([OrderDoc("o1", o)], "o1", "pending");
      r.Ok? && Rank(r.value[0].order.status) < Rank(o.status)
  {
    var orders := [OrderDoc("o1", o)];
    assert orders[0].id == "o1";
  }

  datatype StatusError = NoSuchOrder | NotForward

  /** A move of the order `id` to `status` that the fulfilment sequence allows: a
      listed status no earlier than the one the order has. */
  predicate Forward(orders: seq<OrderDoc>, id: string, status: string) {
    && status in Statuses
    && forall i :: 0 <= i < |orders| && orders[i].id == id ==> Rank(status) >= Rank(orders[i].order.status)
  }

  /** The forward-only status change: the order `id` moves to a listed status no
      earlier than its current one, or nothing changes. */
  function AdvanceOrderStatus(orders: seq<OrderDoc>, id: string, status: string): (r: Result<seq<OrderDoc>, StatusError>)
    ensures r == Err(NoSuchOrder) <==> forall i :: 0 <= i < |orders| ==> orders[i].id != id
    ensures r.Ok? <==> (exists i :: 0 <= i < |orders| && orders[i].id == id) && Forward(orders, id, status)
    ensures r.Ok? ==> |r.value| == |orders| && forall i :: 0 <= i < |orders| ==>
      && r.value[i].id == orders[i].id
      && r.value[i].order.(status := orders[i].order.status) == orders[i].order
      && Rank(r.value[i].order.status) >= Rank(orders[i].order.status)
      && (orders[i].id == id ==> r.value[i].order.status == status)
      && (orders[i].id != id ==> r.value[i] == orders[i])
  {
    if forall i :: 0 <= i < |orders| ==> orders[i].id != id then Err(NoSuchOrder)
    else if !Forward(orders, id, status) then Err(NotForward)
    else Ok(SetStatus(orders, id, status))
  }

  /** The corrected change agrees with the written one on every forward move and
      refuses every other move to an existing order. */
  lemma {:induction false} AdvanceAgreesOnForward(orders: seq<OrderDoc>, id: string, status: string)
    ensures Forward(orders, id, status) ==>
      && (AdvanceOrderStatus(orders, id, status).Ok? <==> UpdateOrderStatus(orders, id, status).Ok?)
      && (UpdateOrderStatus(orders, id, status).Ok? ==>
            AdvanceOrderStatus(orders, id, status).value == UpdateOrderStatus(orders, id, status).value)
    ensures !Forward(orders, id, status) && UpdateOrderStatus(orders, id, status).Ok? ==>
      AdvanceOrderStatus(orders, id, status) == Err(NotForward)
  {
  }

  /** The corrected change refuses the backward move the written one accepts. */
  lemma {:induction false} AdvanceRefusesBackward(o: SrcStorefront.Order)
    requires o.status == "delivered"
    ensures AdvanceOrderStatus([OrderDoc("o1", o)], "o1", "pending") == Err(NotForward)
  {
    var orders := [OrderDoc("o1", o)];
    assert orders[0].id == "o1" && Rank(orders[0].order.status) > Rank("pending");
  }

  // ------------------------------------------------------------------------ products

  /** The product form's fields. */
  datatype ProductForm = ProductForm(
    name: string, description: string, pointCost: int, stock: int, category: string, imageUrl: string)

  /** What the Edit button loads into the form. */
  function EditForm(p: Product): ProductForm {
    ProductForm(p.name, p.description, p.pointCost, p.stock, p.category, p.imageUrl)
  }

  function WithForm(p: Product, form: ProductForm): Product {
    p.(name := form.name, description := form.description, pointCost := form.pointCost,
       stock := form.stock, category := form.category, imageUrl := form.imageUrl)
  }

  /** `handleAddProduct`: a new product document with the form's fields, active. */
  function AddProduct(products: seq<Product>, form: ProductForm, id: string): (r: seq<Product>)
    ensures |r| == |products| + 1 && r[..|products|] == products
    ensures EditForm(r[|products|]) == form && r[|products|].id == id
    ensures r[|products|].status == "active"
  {
    products + [SrcStorefront.Product(id, form.name, form.description, form.pointCost,
                                      form.stock, form.category, form.imageUrl, "active")]
  }

  /** A newly added product reaches a storefront exactly when the corporate has
      selected it and it is in stock. */
  lemma {:induction false} AddedProductVisibility(products: seq<Product>, form: ProductForm, id: string, selected: seq<string>)
    ensures var p := AddProduct(products, form, id)[|products|];
      p in SrcStorefront.VisibleProducts(AddProduct(products, form, id), selected) <==>
        id in selected && form.stock > 0
  {
    var r := AddProduct(products, form, id);
    var p := r[|products|];
    var v := SrcStorefront.VisibleProducts(r, selected);
    if p in v {
      var i :| 0 <= i < |v| && v[i] == p;
    }
  }

  /** `handleUpdateProduct`: the product document `id` gets the form's six fields;
      its id and active status are untouched; the write fails when there is no
      such document. */
  function UpdateProduct(products: seq<Product>, id: string, form: ProductForm): (r: Result<seq<Product>, WriteError>)
    ensures r.Err? <==> forall i :: 0 <= i < |products| ==> products[i].id != id
    ensures r.Ok? ==> |r.value| == |products| && forall i :: 0 <= i < |products| ==>
      && r.value[i].id == products[i].id && r.value[i].status == products[i].status
      && (products[i].id == id ==> EditForm(r.value[i]) == form)
      && (products[i].id != id ==> r.value[i] == products[i])
  {
    if forall i :: 0 <= i < |products| ==> products[i].id != id then Err(NoSuchDocument)
    else Ok(seq(|products|, i requires 0 <= i < |products| =>
      if products[i].id == id then WithForm(products[i], form) else products[i]))
  }

  /** Saving the form the Edit button loaded, unchanged, leaves the catalog as it was. */
  lemma {:induction false} EditWithoutChangesKeepsCatalog(products: seq<Product>, k: nat)
    requires k < |products|
    requires forall i, j :: 0 <= i < j < |products| ==> products[i].id != products[j].id
    ensures UpdateProduct(products, products[k].id, EditForm(products[k])) == Ok(products)
  {
    var r := UpdateProduct(products, products[k].id, EditForm(products[k])).value;
    assert forall i :: 0 <= i < |products| && i != k ==> products[i].id != products[k].id;
    assert WithForm(products[k], EditForm(products[k])) == products[k];
    assert r == products;
  }
}

=== FILE: corporate_dashboard.dfy ===
/** The corporate dashboard of `project/`: adding employees one at a time or from
    a pasted CSV block, choosing which catalog products employees may see, the
    overview figures, and overwriting an employee's points. */
module CorporateDashboard {
  import opened Wrappers
  import Seqs
  import Text
  import SrcStorefront

  /** The signed-in corporate on whose behalf employees are written, and the
      timestamp the write stamps on them. */
  datatype Uploader = Uploader(corporateId: string, companyName: string, createdAt: string)

  /** The fields of an `employees` document as the dashboard writes them; points
      are `None` where `parseInt` gave `NaN`. */
  datatype EmployeeDoc = EmployeeDoc(
    email: string, name: string, points: Option<int>,
    corporateId: string, corporateCompany: string, status: string, createdAt: string)

  datatype Employee = Employee(id: string, fields: EmployeeDoc)

  /** The document of an employee created by `who` with the given data. */
  function NewEmployee(email: string, name: string, points: Option<int>, who: Uploader): EmployeeDoc {
    EmployeeDoc(email, name, points, who.corporateId, who.companyName, "active", who.createdAt)
  }

  // ------------------------------------------------------------------ adding employees

  datatype EmployeeForm = EmployeeForm(email: string, name: string, points: Option<int>)

  /** `handleAddEmployee`: the form's fields as typed, with no trimming or checks. */
  function AddEmployee(form: EmployeeForm, who: Uploader): EmployeeDoc {
    NewEmployee(form.email, form.name, form.points, who)
  }

  /** `line.split(',').map(s => s.trim())`. */
  function Fields(line: string): (r: seq<string>)
    ensures |r| >= 1
    ensures forall i :: 0 <= i < |r| ==> Text.Trimmed(r[i])
  {
    var pieces := Text.Split(line, ',');
    seq(|pieces|, i requires 0 <= i < |pieces| => Text.Trim(pieces[i]))
  }

  /** The record for a line's trimmed fields: `email,name[,points]`, with the
      points defaulting to `"100"` only when there are fewer than three fields;
      kept only when both the email and the name are non-empty; later fields are
      ignored. */
  function Accept(f: seq<string>, who: Uploader): (r: Option<EmployeeDoc>)
    ensures r.Some? <==> |f| >= 2 && |f[0]| > 0 && |f[1]| > 0
    ensures r.Some? ==>
      && r.value.email == f[0] && r.value.name == f[1]
      && r.value.status == "active" && r.value.corporateId == who.corporateId
    ensures r.Some? && |f| >= 3 ==> r.value.points == Text.ParseInt(f[2])
    ensures r.Some? && |f| == 2 ==> r.value.points == Text.ParseInt("100")
  {
    if |f| >= 2 && |f[0]| > 0 && |f[1]| > 0 then
      var points := if |f| >= 3 then f[2] else "100";
      Some(NewEmployee(f[0], f[1], Text.ParseInt(points), who))
    else None
  }

  lemma {:induction false} AcceptThree(email: string, name: string, points: string, who: Uploader)
    requires |email| > 0 && |name| > 0
    ensures Accept([email, name, points], who) == Some(NewEmployee(email, name, Text.ParseInt(points), who))
  {
  }

  lemma {:induction false} AcceptTwo(email: string, name: string, who: Uploader)
    requires |email| > 0 && |name| > 0
    ensures Accept([email, name], who) == Some(NewEmployee(email, name, Text.ParseInt("100"), who))
  {
  }

  /** Fields after the third never reach the record. */
  lemma {:induction false} AcceptIgnoresExtra(f: seq<string>, extra: seq<string>, who: Uploader)
    requires |f| >= 3
    ensures Accept(f + extra, who) == Accept(f, who)
  {
    assert (f + extra)[0] == f[0] && (f + extra)[1] == f[1] && (f + extra)[2] == f[2];
  }

  /** An empty third field is not defaulted: `parseInt("")` stores `NaN`. */
  lemma {:induction false} EmptyPointsIsNaN(email: string, name: string, who: Uploader)
    requires |email| > 0 && |name| > 0
    ensures Accept([email, name, ""], who) == Some(NewEmployee(email, name, None, who))
  {
    AcceptThree(email, name, "", who);
  }

  /** One CSV line of the bulk upload. */
  function ParseLine(line: string, who: Uploader): (r: Option<EmployeeDoc>)
    ensures r.Some? ==> Text.Trimmed(r.value.email) && Text.Trimmed(r.value.name)
  {
    Accept(Fields(line), who)
  }

  /** The batch built from the lines, in order, one record per accepted line. */
  function ParseLines(lines: seq<string>, who: Uploader): (r: seq<EmployeeDoc>)
    ensures |r| <= |lines|
  {
    Seqs.FilterMap(lines, (line: string) => ParseLine(line, who))
  }

  /** Lines are parsed independently of one another. */
  lemma {:induction false} ParseLinesAppend(a: seq<string>, b: seq<string>, who: Uploader)
    ensures ParseLines(a + b, who) == ParseLines(a, who) + ParseLines(b, who)
  {
    Seqs.FilterMapAppend(a, b, (line: string) => ParseLine(line, who));
  }

  /** The batch `handleBulkUpload` builds: nothing at all for blank input, otherwise
      the accepted lines of the trimmed text. */
  function ParseBulk(text: string, who: Uploader): (r: Option<seq<EmployeeDoc>>)
    ensures r.None? <==> Text.AllSpace(text)
  {
    var t := Text.Trim(text);
    if |t| == 0 then None else Some(ParseLines(Text.Split(t, '\n'), who))
  }

  /** `handleBulkUpload`: the documents actually written. The batch is written one
      document at a time and the first failed write (at position `failAt`) ends the
      upload, so what is written is always a prefix of the batch. */
  function BulkUpload(text: string, who: Uploader, failAt: Option<nat>): (written: seq<EmployeeDoc>)
    ensures Text.AllSpace(text) ==> written == []
    ensures ParseBulk(text, who).Some? ==>
      var batch := ParseBulk(text, who).value;
      |written| <= |batch| && written == batch[..|written|]
      && (failAt.None? ==> written == batch)
      && (failAt.Some? && failAt.value < |batch| ==> |written| == failAt.value)
  {
    match ParseBulk(text, who)
    case None => []
    case Some(batch) =>
      if failAt.Some? && failAt.value < |batch| then batch[..failAt.value] else batch
  }

  /** A line without any non-space character adds nobody. */
  lemma {:induction false} BlankLineSkipped(line: string, who: Uploader)
    requires Text.AllSpace(line)
    ensures ParseLine(line, who).None?
  {
    assert ',' !in line by {
      assert !Text.IsSpace(',');
    }
    Text.SplitNoSeparator(line, ',');
  }

  // ------------------------------------------------- rendering a batch as CSV text

  /** A field that survives a trip through the CSV text unchanged. */
  predicate PlainField(s: string) {
    |s| > 0 && Text.Trimmed(s) && ',' !in s && '\n' !in s
  }

  /** A document a CSV line of `who`'s can describe exactly. */
  predicate Renderable(d: EmployeeDoc, who: Uploader) {
    && PlainField(d.email) && PlainField(d.name)
    && d == NewEmployee(d.email, d.name, d.points, who)
  }

  /** The points as the CSV shows them; `NaN` for a non-number. */
  function PointsText(p: Option<int>): (r: string)
    ensures PlainField(r)
    ensures Text.ParseInt(r) == p
  {
    match p
    case None =>
      assert Text.TrimStart("NaN") == "NaN";
      "NaN"
    case Some(v) =>
      Text.ParseShowInt(v);
      var r := Text.ShowInt(v);
      assert forall i :: 0 <= i < |r| ==> r[i] != ',' && r[i] != '\n';
      r
  }

  function RenderLine(d: EmployeeDoc): string {
    d.email + "," + d.name + "," + PointsText(d.points)
  }

  function RenderLines(docs: seq<EmployeeDoc>): (r: seq<string>)
    ensures |r| == |docs|
    ensures forall i :: 0 <= i < |docs| ==> r[i] == RenderLine(docs[i])
  {
    seq(|docs|, i requires 0 <= i < |docs| => RenderLine(docs[i]))
  }

  /** Trimmed, comma-free pieces joined with commas split back into themselves. */
  lemma {:induction false} FieldsOfJoin(parts: seq<string>)
    requires |parts| >= 1
    requires forall i :: 0 <= i < |parts| ==> Text.Trimmed(parts[i]) && ',' !in parts[i]
    ensures Fields(Text.Join(parts, ',')) == parts
  {
    Text.SplitJoin(parts, ',');
    forall i | 0 <= i < |parts| ensures Text.Trim(parts[i]) == parts[i] {
      Text.TrimOfTrimmed(parts[i]);
    }
  }

  lemma {:induction false} RenderLineFields(d: EmployeeDoc)
    requires PlainField(d.email) && PlainField(d.name)
    ensures Fields(RenderLine(d)) == [d.email, d.name, PointsText(d.points)]
  {
    var n := PointsText(d.points);
    var parts := [d.email, d.name, n];
    assert Text.Join(parts, ',') == RenderLine(d) by {
      assert parts[1..][1..] == [n];
      assert Text.Join(parts[1..], ',') == d.name + [','] + n;
    }
    FieldsOfJoin(parts);
  }

  /** A rendered line parses back to its document. */
  lemma {:induction false} LineRoundTrip(d: EmployeeDoc, who: Uploader)
    requires Renderable(d, who)
    ensures ParseLine(RenderLine(d), who) == Some(d)
  {
    var n := PointsText(d.points);
    var parts := [d.email, d.name, n];
    RenderLineFields(d);
    AcceptThree(d.email, d.name, n, who);
    assert Text.ParseInt(n) == d.points;
  }

  /** A rendered line has no line break and no white space at either end. */
  lemma {:induction false} RenderLineShape(d: EmployeeDoc)
    requires PlainField(d.email) && PlainField(d.name)
    ensures '\n' !in RenderLine(d)
    ensures |RenderLine(d)| > 0 && !Text.IsSpace(RenderLine(d)[0])
    ensures !Text.IsSpace(RenderLine(d)[|RenderLine(d)| - 1])
  {
    var n := PointsText(d.points);
    assert RenderLine(d)[|RenderLine(d)| - 1] == n[|n| - 1];
  }

  lemma {:induction false} ParseRendered(docs: seq<EmployeeDoc>, who: Uploader)
    requires forall i :: 0 <= i < |docs| ==> Renderable(docs[i], who)
    ensures ParseLines(RenderLines(docs), who) == docs
  {
    var lines := RenderLines(docs);
    forall i | 0 <= i < |docs| ensures ParseLine(lines[i], who) == Some(docs[i]) {
      LineRoundTrip(docs[i], who);
    }
    Seqs.FilterMapAllDefined(lines, (line: string) => ParseLine(line, who), docs);
  }

  /** The CSV text of a non-empty batch of renderable documents is not blank and
      has no white space at either end. */
  lemma {:induction false} RenderedTextTrimmed(docs: seq<EmployeeDoc>, who: Uploader)
    requires |docs| >= 1
    requires forall i :: 0 <= i < |docs| ==> Renderable(docs[i], who)
    ensures var text := Text.Join(RenderLines(docs), '\n');
      |text| > 0 && Text.Trim(text) == text
  {
    var lines := RenderLines(docs);
    var text := Text.Join(lines, '\n');
    RenderLineShape(docs[0]);
    RenderLineShape(docs[|docs| - 1]);
    Text.JoinFirst(lines, '\n');
    Text.JoinLast(lines, '\n');
    Text.TrimOfTrimmed(text);
  }

  /** The CSV text of a batch splits back into its rendered lines. */
  lemma {:induction false} RenderedTextSplits(docs: seq<EmployeeDoc>, who: Uploader)
    requires |docs| >= 1
    requires forall i :: 0 <= i < |docs| ==> Renderable(docs[i], who)
    ensures Text.Split(Text.Join(RenderLines(docs), '\n'), '\n') == RenderLines(docs)
  {
    var lines := RenderLines(docs);
    forall i | 0 <= i < |lines| ensures '\n' !in lines[i] {
      RenderLineShape(docs[i]);
    }
    Text.SplitJoin(lines, '\n');
  }

  /** Pasting the CSV rendering of a non-empty batch uploads exactly that batch. */
  lemma {:induction false} BulkRoundTrip(docs: seq<EmployeeDoc>, who: Uploader)
    requires |docs| >= 1
    requires forall i :: 0 <= i < |docs| ==> Renderable(docs[i], who)
    ensures ParseBulk(Text.Join(RenderLines(docs), '\n'), who) == Some(docs)
  {
    RenderedTextTrimmed(docs, who);
    RenderedTextSplits(docs, who);
    ParseRendered(docs, who);
  }

  lemma {:induction false} DefaultParses()
    ensures Text.ParseInt("100") == Some(100)
  {
    assert PointsText(Some(100)) == "100" by {
      assert Text.ShowNat(10) == "10" by {
        assert Text.ShowNat(1) == "1";
        assert Text.ShowNat(0) == "0";
      }
    }
  }

  /** A two-field line gets the default of 100 points. */
  lemma {:induction false} DefaultPoints(email: string, name: string, who: Uploader)
    requires PlainField(email) && PlainField(name)
    ensures ParseLine(email + "," + name, who) == Some(NewEmployee(email, name, Some(100), who))
  {
    var parts := [email, name];
    assert Text.Join(parts, ',') == email + "," + name by {
      assert parts[1..] == [name];
    }
    FieldsOfJoin(parts);
    AcceptTwo(email, name, who);
    DefaultParses();
  }

  /** Adding one employee through the form and pasting the same employee as a CSV
      line write the same document. */
  lemma {:induction false} FormAgreesWithBulk(d: EmployeeDoc, who: Uploader)
    requires Renderable(d, who)
    ensures ParseLine(RenderLine(d), who) == Some(AddEmployee(EmployeeForm(d.email, d.name, d.points), who))
  {
    LineRoundTrip(d, who);
  }

  // ---------------------------------------------------------------- product selection

  /** `handleProductSelection`'s new selection: ticking appends the product,
      unticking removes every occurrence of it and keeps the rest in order. */
  function Toggle(selection: seq<string>, id: string, selected: bool): (r: seq<string>)
    ensures selected ==> |r| == |selection| + 1 && r[..|selection|] == selection && id in r
    ensures !selected ==> id !in r && |r| <= |selection|
    ensures !selected ==> forall i :: 0 <= i < |selection| && selection[i] != id ==> selection[i] in r
    ensures !selected ==> forall i :: 0 <= i < |r| ==> r[i] in selection
  {
    if selected then selection + [id]
    else
      var keep := (x: string) => x != id;
      var r := Seqs.Filter(selection, keep);
      Seqs.FilterMembers(selection, keep);
      assert forall i :: 0 <= i < |r| ==> r[i] != id;
      r
  }

  /** Unticking undoes ticking, and unticking a product that is not selected
      changes nothing. */
  lemma {:induction false} UntickUndoesTick(selection: seq<string>, id: string)
    ensures Toggle(Toggle(selection, id, true), id, false) == Toggle(selection, id, false)
    ensures id !in selection ==> Toggle(selection, id, false) == selection
  {
    var keep := (x: string) => x != id;
    Seqs.FilterAppend(selection, [id], keep);
    assert Seqs.Filter([id], keep) == [];
    if id !in selection {
      Seqs.FilterKeepsAll(selection, keep);
    }
  }

  /** Unticking keeps the other ids in their order: it distributes over
      concatenation. */
  lemma {:induction false} UntickKeepsOrder(a: seq<string>, b: seq<string>, id: string)
    ensures Toggle(a + b, id, false) == Toggle(a, id, false) + Toggle(b, id, false)
  {
    Seqs.FilterAppend(a, b, (x: string) => x != id);
  }

  /** Unticking a one-id selection drops the id itself and keeps any other; with
      `UntickKeepsOrder` this pins unticking down as the in-order removal of `id`. */
  lemma {:induction false} UntickSingle(x: string, id: string)
    ensures Toggle([x], id, false) == if x == id then [] else [x]
  {
    assert [x][1..] == [];
  }

  type SettingsDoc = SrcStorefront.Settings

  predicate Owns(s: SettingsDoc, corporateId: string) {
    s.corporateId == corporateId
  }

  /** The selection the dashboard loads: that of the corporate's first settings
      document, or none. */
  function LoadSelection(settings: seq<SettingsDoc>, corporateId: string): (r: seq<string>)
    ensures (forall i :: 0 <= i < |settings| ==> !Owns(settings[i], corporateId)) ==> r == []
  {
    match Seqs.FindIndex(settings, (s: SettingsDoc) => Owns(s, corporateId))
    case None => []
    case Some(k) => settings[k].selectedProducts.GetOr([])
  }

  /** The settings write of `handleProductSelection`: a new document when the
      corporate has none, otherwise the selection of its first one is replaced. */
  function SaveSelection(settings: seq<SettingsDoc>, corporateId: string, selection: seq<string>): (r: seq<SettingsDoc>)
    ensures |r| == |settings| || r == settings + [SrcStorefront.Settings(corporateId, Some(selection))]
    ensures |r| >= |settings|
    ensures forall i :: 0 <= i < |settings| ==> r[i].corporateId == settings[i].corporateId
  {
    match Seqs.FindIndex(settings, (s: SettingsDoc) => Owns(s, corporateId))
    case None => settings + [SrcStorefront.Settings(corporateId, Some(selection))]
    case Some(k) => settings[k := settings[k].(selectedProducts := Some(selection))]
  }

  /** What the dashboard saves is what it loads back. */
  lemma {:induction false} SaveThenLoad(settings: seq<SettingsDoc>, corporateId: string, selection: seq<string>)
    ensures LoadSelection(SaveSelection(settings, corporateId, selection), corporateId) == selection
  {
    var r := SaveSelection(settings, corporateId, selection);
    var p := (s: SettingsDoc) => Owns(s, corporateId);
    match Seqs.FindIndex(settings, p)
    case None =>
      assert p(r[|settings|]);
      assert Seqs.FindIndex(r, p) == Some(|settings|);
    case Some(k) =>
      assert p(r[k]);
      assert Seqs.FindIndex(r, p) == Some(k);
  }

  /** Saving one corporate's selection leaves what every other corporate loads
      unchanged. */
  lemma {:induction false} SaveKeepsOthers(settings: seq<SettingsDoc>, corporateId: string, selection: seq<string>, other: string)
    requires other != corporateId
    ensures LoadSelection(SaveSelection(settings, corporateId, selection), other) == LoadSelection(settings, other)
  {
    var r := SaveSelection(settings, corporateId, selection);
    var q := (s: SettingsDoc) => Owns(s, other);
    assert forall i :: 0 <= i < |settings| ==> r[i].corporateId == settings[i].corporateId;
    match Seqs.FindIndex(settings, q)
    case None =>
      assert Seqs.FindIndex(r, q).None?;
    case Some(k) =>
      assert r[k] == settings[k];
      assert Seqs.FindIndex(r, q) == Some(k);
  }

  /** After the dashboard saves a selection, the corporate's storefront shows
      exactly the visible products of that selection. */
  lemma {:induction false} StorefrontShowsSaved(settings: seq<SettingsDoc>, products: seq<SrcStorefront.Product>, corporateId: string, selection: seq<string>)
    ensures SrcStorefront.CatalogFor(SaveSelection(settings, corporateId, selection), products, corporateId) ==
      if |selection| > 0 then SrcStorefront.VisibleProducts(products, selection) else []
  {
    var r := SaveSelection(settings, corporateId, selection);
    var p := (s: SrcStorefront.Settings) => s.corporateId == corporateId;
    match Seqs.FindIndex(settings, p)
    case None =>
      assert p(r[|settings|]);
      assert Seqs.FindIndex(r, p) == Some(|settings|);
    case Some(k) =>
      assert p(r[k]);
      assert Seqs.FindIndex(r, p) == Some(k);
  }

  // ----------------------------------------------------------------------- the figures

  function PointsOrZero(e: Employee): int {
    e.fields.points.GetOr(0)
  }

  /** `employees.reduce((sum, emp) => sum + emp.points, 0)`: `NaN` as soon as one
      employee's points are `NaN`, otherwise the sum. */
  function PointsTotal(employees: seq<Employee>): (r: Option<int>)
    ensures r.Some? <==> forall i :: 0 <= i < |employees| ==> employees[i].fields.points.Some?
    ensures r.Some? ==> r.value == Seqs.Sum(employees, PointsOrZero)
  {
    if |employees| == 0 then Some(0)
    else
      var rest := PointsTotal(employees[1..]);
      if employees[0].fields.points.Some? && rest.Some? then
        Some(employees[0].fields.points.value + rest.value)
      else None
  }

  datatype Stats = Stats(
    totalEmployees: nat, totalOrders: nat, selectedProductsCount: nat,
    totalPointsAllocated: Option<int>)

  /** The four overview figures. */
  function DashboardStats(employees: seq<Employee>, orderCount: nat, selection: seq<string>): Stats {
    Stats(|employees|, orderCount, |selection|, PointsTotal(employees))
  }

  // ------------------------------------------------------------ overwriting points

  datatype UpdateError = NoSuchEmployee

  function SetPointsOf(employees: seq<Employee>, id: string, points: Option<int>): (r: seq<Employee>)
    ensures |r| == |employees|
    ensures forall i :: 0 <= i < |r| ==> r[i].id == employees[i].id
  {
    seq(|employees|, i requires 0 <= i < |employees| =>
      if employees[i].id == id then employees[i].(fields := employees[i].fields.(points := points))
      else employees[i])
  }

  /** `handleUpdateEmployeePoints`: the employee document `id` gets the new points,
      whatever they are (negative or `NaN` included); the write fails when there
      is no such document. */
  function UpdateEmployeePoints(employees: seq<Employee>, id: string, points: Option<int>): (r: Result<seq<Employee>, UpdateError>)
    ensures r.Err? <==> forall i :: 0 <= i < |employees| ==> employees[i].id != id
    ensures r.Ok? ==> |r.value| == |employees|
    ensures r.Ok? ==> forall i :: 0 <= i < |employees| ==>
      && r.value[i].id == employees[i].id
      && (employees[i].id == id ==> r.value[i].fields.points == points)
      && (employees[i].id != id ==> r.value[i] == employees[i])
      && r.value[i].fields.(points := employees[i].fields.points) == employees[i].fields
  {
    if forall i :: 0 <= i < |employees| ==> employees[i].id != id then Err(NoSuchEmployee)
    else Ok(SetPointsOf(employees, id, points))
  }

  predicate UniqueIds(employees: seq<Employee>) {
    forall i, j :: 0 <= i < j < |employees| ==> employees[i].id != employees[j].id
  }

  /** With unique ids, the update rewrites exactly one position. */
  lemma {:induction false} UpdateAt(employees: seq<Employee>, k: nat, points: Option<int>)
    requires k < |employees| && UniqueIds(employees)
    ensures var e := employees[k];
      UpdateEmployeePoints(employees, e.id, points) == Ok(employees[k := e.(fields := e.fields.(points := points))])
  {
    var e := employees[k];
    var r := SetPointsOf(employees, e.id, points);
    assert forall i :: 0 <= i < |r| && i != k ==> employees[i].id != e.id;
    assert r == employees[k := e.(fields := e.fields.(points := points))];
  }

  /** Replacing one employee by one with numeric points moves the total by the
      difference of the two entries. */
  lemma {:induction false} TotalAfterSet(employees: seq<Employee>, k: nat, updated: Employee)
    requires k < |employees|
    requires PointsTotal(employees).Some? && updated.fields.points.Some?
    ensures PointsTotal(employees[k := updated]) ==
      Some(PointsTotal(employees).value - employees[k].fields.points.value + updated.fields.points.value)
  {
    var after := employees[k := updated];
    assert forall i :: 0 <= i < |after| ==> after[i].fields.points.Some?;
    Seqs.SumUpdate(employees, k, updated, PointsOrZero);
  }

  /** Overwriting one employee's points moves the allocated total by the
      difference, and a `NaN` entry turns the total into `NaN`. */
  lemma {:induction false} TotalAfterUpdate(employees: seq<Employee>, k: nat, points: Option<int>)
    requires k < |employees| && UniqueIds(employees)
    requires PointsTotal(employees).Some?
    ensures var r := UpdateEmployeePoints(employees, employees[k].id, points);
      && r.Ok?
      && (points.None? ==> PointsTotal(r.value).None?)
      && (points.Some? ==>
            PointsTotal(r.value) == Some(PointsTotal(employees).value - employees[k].fields.points.value + points.value))
  {
    var e := employees[k];
    var updated := e.(fields := e.fields.(points := points));
    UpdateAt(employees, k, points);
    if points.None? {
      assert !employees[k := updated][k].fields.points.Some?;
    } else {
      TotalAfterSet(employees, k, updated);
    }
  }
}

=== FILE: navbar.dfy ===
/** The navigation bar's "Dashboard" link: where each kind of signed-in user is sent. */
module Navbar {
  import opened Wrappers

  /** The two profile fields the link reads; either may be missing. */
  datatype Profile = Profile(corporateId: Option<string>, corporateSlug: Option<string>)

  /** JavaScript truthiness of an optional string field: present and non-empty. */
  predicate Truthy(f: Option<string>) {
    f.Some? && f.value != ""
  }

  /** An employee bound to a corporate: the only case that leads to a company page. */
  predicate BoundEmployee(role: Option<string>, profile: Option<Profile>) {
    role == Some("employee") && profile.Some? && Truthy(profile.value.corporateId)
  }

  const CompanyPrefix: string := "/company/"

  /** `getDashboardLink`: admins and corporates get their dashboards, an employee with
      a corporate gets the company page named by the slug (or `dashboard` without
      one), and everybody else, including a missing role, gets the home page. */
  function DashboardLink(role: Option<string>, profile: Option<Profile>): (r: string)
    ensures r == "/admin/dashboard" <==> role == Some("admin")
    ensures r == "/corporate/dashboard" <==> role == Some("corporate")
    ensures r == "/" <==> !(role == Some("admin") || role == Some("corporate") || BoundEmployee(role, profile))
    ensures BoundEmployee(role, profile) && Truthy(profile.value.corporateSlug) ==>
      r == CompanyPrefix + profile.value.corporateSlug.value
    ensures BoundEmployee(role, profile) && !Truthy(profile.value.corporateSlug) ==>
      r == "/company/dashboard"
  {
    match role
    case Some("admin") => "/admin/dashboard"
    case Some("corporate") => "/corporate/dashboard"
    case Some("employee") =>
      if profile.Some? && Truthy(profile.value.corporateId) then
        var slug := profile.value.corporateSlug;
        var r := CompanyPrefix + (if Truthy(slug) then slug.value else "dashboard");
        assert r[1] == 'c' && r[3] == 'm';
        r
      else "/"
    case _ => "/"
  }

  /** The company-page link names the employee's corporate: the slug can be read
      back from the path, so two employees of different corporates never share it. */
  lemma {:induction false} CompanyLinkNamesSlug(profile: Profile)
    requires Truthy(profile.corporateId) && Truthy(profile.corporateSlug)
    ensures var r := DashboardLink(Some("employee"), Some(profile));
      && |r| > |CompanyPrefix| && r[..|CompanyPrefix|] == CompanyPrefix
      && r[|CompanyPrefix|..] == profile.corporateSlug.value
  {
  }
}

=== FILE: project_storefront.dfy ===
/** The employee storefront of `project/`: the cart an employee fills on a company's
    page and the checkout that turns it into an order and debits the employee's
    points balance. The document store is a value of type `Store`; each write the
    checkout issues can fail, which `Faults` decides. */
module ProjectStorefront {
  import opened Wrappers
  import Seqs

  datatype Product = Product(
    id: string, name: string, description: string, pointsCost: int,
    imageUrl: string, category: string, inStock: bool)

  /** One cart line: the product's id, how many, and the product as it was added. */
  datatype CartItem = CartItem(productId: string, quantity: int, product: Product)

  type Cart = seq<CartItem>

  /** What the cart operations keep: one line per product, each for at least one
      unit, each keyed by the id of the product it carries. */
  predicate ValidCart(c: Cart) {
    && (forall i :: 0 <= i < |c| ==> c[i].quantity >= 1 && c[i].productId == c[i].product.id)
    && (forall i, j :: 0 <= i < j < |c| ==> c[i].productId != c[j].productId)
  }

  /** `cart.find(item => item.productId === id)`, as the index of the first match. */
  function Find(c: Cart, id: string): (k: Option<nat>)
    ensures k.Some? ==> k.value < |c| && c[k.value].productId == id
    ensures k.Some? ==> forall j :: 0 <= j < k.value ==> c[j].productId != id
    ensures k.None? <==> forall j :: 0 <= j < |c| ==> c[j].productId != id
  {
    if |c| == 0 then None
    else if c[0].productId == id then Some(0)
    else match Find(c[1..], id)
      case None => None
      case Some(k) => Some(k + 1)
  }

  /** In a valid cart the line for `id`, when there is one, is the only one. */
  lemma {:induction false} FindUnique(c: Cart, id: string, k: nat)
    requires ValidCart(c) && Find(c, id) == Some(k)
    ensures forall j :: 0 <= j < |c| && j != k ==> c[j].productId != id
  {
  }

  /** The `cart.map` both quantity updates use: every line for `id` gets `quantity(line)`. */
  function UpdateLines(c: Cart, id: string, quantity: CartItem -> int): (r: Cart)
    ensures |r| == |c|
    ensures forall i :: 0 <= i < |c| ==> r[i].productId == c[i].productId && r[i].product == c[i].product
  {
    seq(|c|, i requires 0 <= i < |c| =>
      if c[i].productId == id then c[i].(quantity := quantity(c[i])) else c[i])
  }

  /** In a valid cart, updating the lines for `id` touches exactly the one found. */
  lemma {:induction false} UpdateLinesAt(c: Cart, id: string, quantity: CartItem -> int, k: nat)
    requires ValidCart(c) && Find(c, id) == Some(k)
    ensures UpdateLines(c, id, quantity) == c[k := c[k].(quantity := quantity(c[k]))]
  {
    FindUnique(c, id, k);
  }

  function OneMore(item: CartItem): int {
    item.quantity + 1
  }

  /** `addToCart`: nothing without a signed-in employee; otherwise one more unit on
      the product's line, or a new line of one unit at the end of the cart. */
  function AddToCart(c: Cart, p: Product, signedIn: bool): (r: Cart)
    ensures !signedIn ==> r == c
    ensures signedIn && Find(c, p.id).None? ==> r == c + [CartItem(p.id, 1, p)]
    ensures signedIn && ValidCart(c) && Find(c, p.id).Some? ==>
      var k := Find(c, p.id).value;
      r == c[k := c[k].(quantity := c[k].quantity + 1)]
    ensures ValidCart(c) ==> ValidCart(r)
  {
    if !signedIn then c
    else match Find(c, p.id)
      case Some(k) =>
        var r := UpdateLines(c, p.id, OneMore);
        if ValidCart(c) then UpdateLinesAt(c, p.id, OneMore, k); r else r
      case None => c + [CartItem(p.id, 1, p)]
  }

  /** The filter `removeFromCart` applies: keep the lines for other products. */
  function KeepOthers(id: string): CartItem -> bool {
    (item: CartItem) => item.productId != id
  }

  /** `removeFromCart`: the cart without the line for `id`, other lines in order. */
  function RemoveFromCart(c: Cart, id: string): (r: Cart)
    ensures forall j :: 0 <= j < |r| ==> r[j].productId != id
    ensures Find(c, id).None? ==> r == c
    ensures ValidCart(c) && Find(c, id).Some? ==>
      var k := Find(c, id).value;
      r == c[..k] + c[k + 1..]
    ensures ValidCart(c) ==> ValidCart(r)
  {
    RemoveAbsent(c, id);
    RemovePresent(c, id);
    Seqs.Filter(c, KeepOthers(id))
  }

  lemma {:induction false} RemoveAbsent(c: Cart, id: string)
    ensures Find(c, id).None? ==> Seqs.Filter(c, KeepOthers(id)) == c
  {
    if Find(c, id).None? {
      Seqs.FilterKeepsAll(c, KeepOthers(id));
    }
  }

  lemma {:induction false} RemovePresent(c: Cart, id: string)
    ensures ValidCart(c) && Find(c, id).Some? ==>
      var k := Find(c, id).value;
      && Seqs.Filter(c, KeepOthers(id)) == c[..k] + c[k + 1..]
      && ValidCart(c[..k] + c[k + 1..])
  {
    if ValidCart(c) && Find(c, id).Some? {
      var k := Find(c, id).value;
      FindUnique(c, id, k);
      Seqs.FilterDropsOne(c, KeepOthers(id), k);
      ValidWithout(c, k);
    }
  }

  /** The position in `c` of position `j` of `c` without its line `k`. */
  function Skip(j: nat, k: nat): nat {
    if j < k then j else j + 1
  }

  /** Dropping a line keeps a cart valid. */
  lemma {:induction false} ValidWithout(c: Cart, k: nat)
    requires ValidCart(c) && k < |c|
    ensures ValidCart(c[..k] + c[k + 1..])
  {
    var r := c[..k] + c[k + 1..];
    assert forall j :: 0 <= j < |r| ==> Skip(j, k) < |c| && r[j] == c[Skip(j, k)];
  }

  /** `updateCartQuantity`: a quantity of zero or less removes the line; a positive
      one replaces the quantity of the line for `id` and of nothing else. */
  function UpdateCartQuantity(c: Cart, id: string, quantity: int): (r: Cart)
    ensures quantity <= 0 ==> r == RemoveFromCart(c, id)
    ensures quantity > 0 && Find(c, id).None? ==> r == c
    ensures quantity > 0 && ValidCart(c) && Find(c, id).Some? ==>
      var k := Find(c, id).value;
      r == c[k := c[k].(quantity := quantity)]
    ensures ValidCart(c) ==> ValidCart(r)
  {
    if quantity <= 0 then RemoveFromCart(c, id)
    else
      var setTo := (item: CartItem) => quantity;
      var r := UpdateLines(c, id, setTo);
      match Find(c, id)
      case None => assert r == c; r
      case Some(k) => if ValidCart(c) then UpdateLinesAt(c, id, setTo, k); r else r
  }

  function LineCost(item: CartItem): int {
    item.product.pointsCost * item.quantity
  }

  /** `getTotalPoints`: the points the cart costs, recomputed from its lines. */
  function CartTotal(c: Cart): (t: int)
    ensures |c| == 0 ==> t == 0
    ensures (forall i :: 0 <= i < |c| ==> c[i].product.pointsCost >= 0 && c[i].quantity >= 0) ==> t >= 0
  {
    var t := Seqs.Sum(c, LineCost);
    assert (forall i :: 0 <= i < |c| ==> c[i].product.pointsCost >= 0 && c[i].quantity >= 0) ==> t >= 0 by {
      if forall i :: 0 <= i < |c| ==> c[i].product.pointsCost >= 0 && c[i].quantity >= 0 {
        Seqs.SumNonNegative(c, LineCost);
      }
    }
    t
  }

  /** The unit cost a further `addToCart(p)` is charged at: the product stored on
      the existing line, or `p` itself for a new line. */
  function AddedUnitCost(c: Cart, p: Product): int {
    match Find(c, p.id)
    case Some(k) => c[k].product.pointsCost
    case None => p.pointsCost
  }

  lemma {:induction false} LineCostOneMore(item: CartItem)
    ensures LineCost(item.(quantity := item.quantity + 1)) == LineCost(item) + item.product.pointsCost
  {
    var cost, q := item.product.pointsCost, item.quantity;
    assert cost * (q + 1) == cost * q + cost;
  }

  /** Adding a product raises the total by one unit of the line's product: the
      product passed in for a new line, the one stored on the line otherwise. */
  lemma {:induction false} TotalAfterAdd(c: Cart, p: Product)
    requires ValidCart(c)
    ensures CartTotal(AddToCart(c, p, true)) == CartTotal(c) + AddedUnitCost(c, p)
  {
    var r := AddToCart(c, p, true);
    match Find(c, p.id)
    case Some(k) =>
      var line := c[k].(quantity := c[k].quantity + 1);
      assert r == c[k := line];
      assert CartTotal(r) == CartTotal(c) - LineCost(c[k]) + LineCost(line) by {
        Seqs.SumUpdate(c, k, line, LineCost);
      }
      assert LineCost(line) == LineCost(c[k]) + c[k].product.pointsCost by {
        LineCostOneMore(c[k]);
      }
    case None =>
      assert r == c + [CartItem(p.id, 1, p)];
      Seqs.SumAppend(c, [CartItem(p.id, 1, p)], LineCost);
  }

  /** Removing a product lowers the total by exactly the cost of its line. */
  lemma {:induction false} TotalAfterRemove(c: Cart, id: string)
    requires ValidCart(c)
    ensures CartTotal(RemoveFromCart(c, id)) == CartTotal(c) -
      match Find(c, id)
      case Some(k) => LineCost(c[k])
      case None => 0
  {
    match Find(c, id)
    case Some(k) =>
      Seqs.SumRemove(c, k, LineCost);
    case None =>
  }

  /** Setting a positive quantity replaces the cost of that one line. */
  lemma {:induction false} TotalAfterUpdate(c: Cart, id: string, quantity: int)
    requires ValidCart(c) && quantity > 0
    ensures CartTotal(UpdateCartQuantity(c, id, quantity)) == CartTotal(c) +
      match Find(c, id)
      case Some(k) => c[k].product.pointsCost * quantity - LineCost(c[k])
      case None => 0
  {
    match Find(c, id)
    case Some(k) =>
      Seqs.SumUpdate(c, k, c[k].(quantity := quantity), LineCost);
    case None =>
  }

  datatype Employee = Employee(
    id: string, name: string, email: string, pointsBalance: int, department: Option<string>)

  datatype Company = Company(id: string, name: string, slug: string)

  datatype ShippingAddress = ShippingAddress(
    fullName: string, phone: string, countryCode: string, addressLine1: string,
    addressLine2: string, city: string, state: string, zipCode: string, country: string)

  datatype OrderStatus = Pending | Processing | Shipped | Delivered

  /** An order document; `createdAt` is the server timestamp, kept opaque. */
  datatype Order = Order(
    companyId: string, employeeId: string, employeeName: string, employeeEmail: string,
    items: Cart, totalPoints: int, status: OrderStatus, shippingAddress: ShippingAddress,
    createdAt: int)

  /** The two collections the checkout writes to. */
  datatype Store = Store(orders: seq<Order>, employees: seq<Employee>)

  /** The page's state: the employee record as loaded when they signed in (so its
      balance may be stale), the authenticated user's id, the company, the cart
      and the shipping address form. */
  datatype Session = Session(
    employee: Option<Employee>, userId: Option<string>, company: Option<Company>,
    cart: Cart, address: ShippingAddress)

  /** Which of the checkout's writes the store rejects. */
  datatype Faults = Faults(orderWriteFails: bool, balanceWriteFails: bool)

  datatype CheckoutError =
    | IncompleteAddress     // "Please provide a complete shipping address before checkout"
    | InsufficientPoints    // "Insufficient points balance"
    | OrderNotSaved         // the order write failed: "Failed to place order"
    | BalanceNotSaved       // the balance write failed after the order was written
    | EmployeeNotFound      // corrected checkout only: no employee document to debit
    | TransactionFailed     // corrected checkout only: the atomic write was rejected

  /** The store and page state after a checkout, and the error it reports, if any. */
  datatype Outcome = Outcome(store: Store, session: Session, error: Option<CheckoutError>)

  /** The balance of the employee document with id `id`, if there is one. */
  function BalanceOf(employees: seq<Employee>, id: string): (b: Option<int>)
    ensures b.Some? <==> exists i :: 0 <= i < |employees| && employees[i].id == id
  {
    if |employees| == 0 then None
    else if employees[0].id == id then Some(employees[0].pointsBalance)
    else BalanceOf(employees[1..], id)
  }

  /** `updateDoc(employees/id, { pointsBalance: v })` on a document that exists. */
  function SetBalance(employees: seq<Employee>, id: string, v: int): (r: seq<Employee>)
    ensures |r| == |employees|
    ensures forall i :: 0 <= i < |r| ==> r[i].id == employees[i].id
  {
    seq(|employees|, i requires 0 <= i < |employees| =>
      if employees[i].id == id then employees[i].(pointsBalance := v) else employees[i])
  }

  /** After writing `v` for `id`, `id` reads back `v` and every other balance is as before. */
  lemma {:induction false} BalanceAfterSet(employees: seq<Employee>, id: string, v: int, other: string)
    ensures BalanceOf(SetBalance(employees, id, v), other) ==
      if other == id && BalanceOf(employees, id).Some? then Some(v) else BalanceOf(employees, other)
  {
    if |employees| > 0 {
      assert SetBalance(employees, id, v)[1..] == SetBalance(employees[1..], id, v);
      BalanceAfterSet(employees[1..], id, v, other);
    }
  }

  predicate SignedIn(s: Session) {
    s.employee.Some? && s.userId.Some? && s.company.Some?
  }

  /** The three address fields the checkout insists on (any non-empty text passes). */
  predicate AddressComplete(a: ShippingAddress) {
    a.fullName != "" && a.addressLine1 != "" && a.city != ""
  }

  /** The order `handleCheckout` writes for the page state `s`. */
  function NewOrder(s: Session, createdAt: int): Order
    requires SignedIn(s)
  {
    var emp := s.employee.value;
    Order(s.company.value.id, s.userId.value, emp.name, emp.email, s.cart,
          CartTotal(s.cart), Pending, s.address, createdAt)
  }

  /** `after` is `before` with exactly one order added at the end: pending, for the
      whole cart, costing the cart's total, to the session's user, company and address. */
  predicate OrderAppended(before: seq<Order>, after: seq<Order>, s: Session, createdAt: int) {
    && SignedIn(s)
    && |after| == |before| + 1 && after[..|before|] == before
    && var o := after[|before|];
    && o.status == Pending && o.items == s.cart && o.totalPoints == CartTotal(s.cart)
    && o.companyId == s.company.value.id && o.employeeId == s.userId.value
    && o.employeeName == s.employee.value.name && o.employeeEmail == s.employee.value.email
    && o.shippingAddress == s.address && o.createdAt == createdAt
  }

  /** Every balance except the one of `id` reads the same in both lists. */
  ghost predicate OthersUnchanged(before: seq<Employee>, after: seq<Employee>, id: string) {
    forall other :: other != id ==> BalanceOf(after, other) == BalanceOf(before, other)
  }

  /** `handleCheckout` as written: guards on the session and on the cached balance,
      then writes the order, then writes the cached balance minus the total, with
      nothing undoing the order if the second write fails. */
  function Checkout(st: Store, s: Session, createdAt: int, f: Faults): (r: Outcome)
    ensures !SignedIn(s) ==> r == Outcome(st, s, None)
    ensures r.error.Some? && r.error != Some(BalanceNotSaved) ==> r.store == st && r.session == s
    ensures r.error == Some(IncompleteAddress) <==> SignedIn(s) && !AddressComplete(s.address)
    ensures r.error == Some(InsufficientPoints) <==>
      SignedIn(s) && AddressComplete(s.address) && CartTotal(s.cart) > s.employee.value.pointsBalance
    ensures r.error == Some(BalanceNotSaved) ==>
      OrderAppended(st.orders, r.store.orders, s, createdAt)
      && r.store.employees == st.employees && r.session == s
    ensures r.error != Some(EmployeeNotFound) && r.error != Some(TransactionFailed)
    ensures SignedIn(s) && r.error.None? ==>
      var emp := s.employee.value;
      var left := emp.pointsBalance - CartTotal(s.cart);
      && OrderAppended(st.orders, r.store.orders, s, createdAt)
      && BalanceOf(r.store.employees, emp.id) == Some(left) && left >= 0
      && OthersUnchanged(st.employees, r.store.employees, emp.id)
      && r.session == s.(cart := [], employee := Some(emp.(pointsBalance := left)))
    ensures (&& SignedIn(s) && AddressComplete(s.address)
             && CartTotal(s.cart) <= s.employee.value.pointsBalance
             && !f.orderWriteFails && !f.balanceWriteFails
             && BalanceOf(st.employees, s.employee.value.id).Some?) ==> r.error.None?
  {
    if !SignedIn(s) then Outcome(st, s, None)
    else if !AddressComplete(s.address) then Outcome(st, s, Some(IncompleteAddress))
    else
      var emp := s.employee.value;
      var total := CartTotal(s.cart);
      if total > emp.pointsBalance then Outcome(st, s, Some(InsufficientPoints))
      else if f.orderWriteFails then Outcome(st, s, Some(OrderNotSaved))
      else
        var withOrder := st.(orders := st.orders + [NewOrder(s, createdAt)]);
        assert withOrder.orders[..|st.orders|] == st.orders;
        if f.balanceWriteFails || BalanceOf(st.employees, emp.id).None? then
          Outcome(withOrder, s, Some(BalanceNotSaved))
        else
          var left := emp.pointsBalance - total;
          var employees := SetBalance(st.employees, emp.id, left);
          BalanceAfterSet(st.employees, emp.id, left, emp.id);
          assert OthersUnchanged(st.employees, employees, emp.id) by {
            forall other | other != emp.id
              ensures BalanceOf(employees, other) == BalanceOf(st.employees, other)
            {
              BalanceAfterSet(st.employees, emp.id, left, other);
            }
          }
          Outcome(withOrder.(employees := employees),
                  s.(cart := [], employee := Some(emp.(pointsBalance := left))), None)
  }

  /** The corrected checkout: the balance is read from the store rather than from
      the page, and the order and the debit are one atomic write, so either both
      happen or neither does. */
  function CheckoutAtomic(st: Store, s: Session, createdAt: int, f: Faults): (r: Outcome)
    ensures !SignedIn(s) ==> r == Outcome(st, s, None)
    ensures r.error.Some? ==> r.store == st && r.session == s
    ensures r.error == Some(InsufficientPoints) <==>
      && SignedIn(s) && AddressComplete(s.address)
      && BalanceOf(st.employees, s.employee.value.id).Some?
      && CartTotal(s.cart) > BalanceOf(st.employees, s.employee.value.id).value
    ensures SignedIn(s) && r.error.None? ==>
      var id := s.employee.value.id;
      && BalanceOf(st.employees, id).Some?
      && var left := BalanceOf(st.employees, id).value - CartTotal(s.cart);
      && OrderAppended(st.orders, r.store.orders, s, createdAt)
      && BalanceOf(r.store.employees, id) == Some(left) && left >= 0
      && OthersUnchanged(st.employees, r.store.employees, id)
      && r.session == s.(cart := [], employee := Some(s.employee.value.(pointsBalance := left)))
    ensures r.error == Some(IncompleteAddress) <==> SignedIn(s) && !AddressComplete(s.address)
    ensures r.error == Some(EmployeeNotFound) <==>
      SignedIn(s) && AddressComplete(s.address) && BalanceOf(st.employees, s.employee.value.id).None?
    ensures r.error == Some(TransactionFailed) ==> f.orderWriteFails || f.balanceWriteFails
    ensures r.error != Some(OrderNotSaved) && r.error != Some(BalanceNotSaved)
    ensures (&& SignedIn(s) && AddressComplete(s.address)
             && BalanceOf(st.employees, s.employee.value.id).Some?
             && CartTotal(s.cart) <= BalanceOf(st.employees, s.employee.value.id).value
             && !f.orderWriteFails && !f.balanceWriteFails) ==> r.error.None?
  {
    if !SignedIn(s) then Outcome(st, s, None)
    else if !AddressComplete(s.address) then Outcome(st, s, Some(IncompleteAddress))
    else
      var emp := s.employee.value;
      match BalanceOf(st.employees, emp.id)
      case None => Outcome(st, s, Some(EmployeeNotFound))
      case Some(balance) =>
        var total := CartTotal(s.cart);
        if total > balance then Outcome(st, s, Some(InsufficientPoints))
        else if f.orderWriteFails || f.balanceWriteFails then Outcome(st, s, Some(TransactionFailed))
        else
          var left := balance - total;
          var employees := SetBalance(st.employees, emp.id, left);
          BalanceAfterSet(st.employees, emp.id, left, emp.id);
          assert OthersUnchanged(st.employees, employees, emp.id) by {
            forall other | other != emp.id
              ensures BalanceOf(employees, other) == BalanceOf(st.employees, other)
            {
              BalanceAfterSet(st.employees, emp.id, left, other);
            }
          }
          var orders := st.orders + [NewOrder(s, createdAt)];
          assert orders[..|st.orders|] == st.orders;
          Outcome(Store(orders, employees),
                  s.(cart := [], employee := Some(emp.(pointsBalance := left))), None)
  }

  /** One submitted checkout: the page state it was submitted from (each browser
      tab keeps its own), its timestamp, and which writes fail. */
  datatype Attempt = Attempt(session: Session, createdAt: int, faults: Faults)

  /** The store after the attempts are submitted one after the other. */
  function RunAsWritten(st: Store, attempts: seq<Attempt>): Store
    decreases |attempts|
  {
    if |attempts| == 0 then st
    else
      var a := attempts[0];
      RunAsWritten(Checkout(st, a.session, a.createdAt, a.faults).store, attempts[1..])
  }

  function RunAtomic(st: Store, attempts: seq<Attempt>): Store
    decreases |attempts|
  {
    if |attempts| == 0 then st
    else
      var a := attempts[0];
      RunAtomic(CheckoutAtomic(st, a.session, a.createdAt, a.faults).store, attempts[1..])
  }

  function OrderPoints(o: Order): int {
    o.totalPoints
  }

  /** Points spent on a list of orders. */
  function OrderedPoints(orders: seq<Order>): int {
    Seqs.Sum(orders, OrderPoints)
  }

  /** Every attempt is made by the employee `id` (or by nobody signed in). */
  predicate AllBy(attempts: seq<Attempt>, id: string) {
    forall i :: 0 <= i < |attempts| ==>
      attempts[i].session.employee.Some? ==> attempts[i].session.employee.value.id == id
  }

  /** One corrected checkout by `id` either changes nothing or appends one order and
      lowers the balance by exactly its points, never below zero. */
  lemma {:induction false} AtomicStep(st: Store, a: Attempt, id: string, b: int)
    requires BalanceOf(st.employees, id) == Some(b)
    requires a.session.employee.Some? ==> a.session.employee.value.id == id
    ensures var st1 := CheckoutAtomic(st, a.session, a.createdAt, a.faults).store;
      || st1 == st
      || (&& |st1.orders| == |st.orders| + 1 && st1.orders[..|st.orders|] == st.orders
          && var left := b - OrderPoints(st1.orders[|st.orders|]);
          && BalanceOf(st1.employees, id) == Some(left) && left >= 0)
  {
  }

  /** The points of the orders from position `n` on. */
  lemma {:induction false} OrderedPointsFrom(orders: seq<Order>, n: nat)
    requires n < |orders|
    ensures OrderedPoints(orders[n..]) == OrderPoints(orders[n]) + OrderedPoints(orders[n + 1..])
  {
    assert orders[n..] == [orders[n]] + orders[n + 1..];
    Seqs.SumAppend([orders[n]], orders[n + 1..], OrderPoints);
  }

  /** The ledger property of the corrected checkout: whatever the pages believe the
      balance to be and whichever writes fail, the employee's balance never goes
      negative, and what is left plus what the new orders cost is what there was. */
  lemma {:induction false} AtomicRunConserves(st: Store, attempts: seq<Attempt>, id: string, b: int)
    requires BalanceOf(st.employees, id) == Some(b) && b >= 0
    requires AllBy(attempts, id)
    ensures var fin := RunAtomic(st, attempts);
      && |fin.orders| >= |st.orders| && fin.orders[..|st.orders|] == st.orders
      && BalanceOf(fin.employees, id).Some? && BalanceOf(fin.employees, id).value >= 0
      && BalanceOf(fin.employees, id).value + OrderedPoints(fin.orders[|st.orders|..]) == b
    decreases |attempts|
  {
    if |attempts| == 0 {
      assert st.orders[|st.orders|..] == [];
    } else {
      var a := attempts[0];
      var st1 := CheckoutAtomic(st, a.session, a.createdAt, a.faults).store;
      var fin := RunAtomic(st1, attempts[1..]);
      assert fin == RunAtomic(st, attempts);
      assert AllBy(attempts[1..], id);
      if st1 == st {
        AtomicRunConserves(st, attempts[1..], id, b);
      } else {
        var n := |st.orders|;
        assert |st1.orders| == n + 1 && st1.orders[..n] == st.orders by {
          AtomicStep(st, a, id, b);
        }
        var b1 := b - OrderPoints(st1.orders[n]);
        assert BalanceOf(st1.employees, id) == Some(b1) && b1 >= 0 by {
          AtomicStep(st, a, id, b);
        }
        AtomicRunConserves(st1, attempts[1..], id, b1);
        assert fin.orders[..|st1.orders|] == st1.orders;
        assert fin.orders[..n] == st.orders;
        assert fin.orders[n] == st1.orders[n];
        OrderedPointsFrom(fin.orders, n);
      }
    }
  }

  /** A concrete page: one employee with 100 points, one product costing 80 in the cart. */
  const Gift: Product := Product("p1", "Gift", "", 80, "", "", true)
  const Alice: Employee := Employee("e1", "Alice", "alice@example.com", 100, None)
  const HomeAddress: ShippingAddress :=
    ShippingAddress("Alice", "", "+1", "1 Main St", "", "Springfield", "", "", "United States")
  const AliceTab: Session :=
    Session(Some(Alice), Some("u1"), Some(Company("c1", "Acme", "acme")), [CartItem("p1", 1, Gift)], HomeAddress)
  const NoFaults: Faults := Faults(false, false)

  /** Two tabs loaded with a balance of 100 each check out an 80-point cart: both
      pass the guard on their cached balance, both orders are written, and the
      second debit overwrites the first, leaving 20. The employee received 160
      points of goods out of 100. */
  lemma {:induction false} StaleBalanceOverspends()
    ensures var fin := RunAsWritten(Store([], [Alice]), [Attempt(AliceTab, 1, NoFaults), Attempt(AliceTab, 2, NoFaults)]);
      && OrderedPoints(fin.orders) == 160
      && BalanceOf(fin.employees, "e1") == Some(20)
  {
    var st0 := Store([], [Alice]);
    assert CartTotal(AliceTab.cart) == 80;
    var st1 := Checkout(st0, AliceTab, 1, NoFaults).store;
    assert st1.orders == [NewOrder(AliceTab, 1)];
    var st2 := Checkout(st1, AliceTab, 2, NoFaults).store;
    assert st2.orders == [NewOrder(AliceTab, 1), NewOrder(AliceTab, 2)];
    assert BalanceOf(st2.employees, "e1") == Some(20);
    var attempts := [Attempt(AliceTab, 1, NoFaults), Attempt(AliceTab, 2, NoFaults)];
    assert attempts[1..] == [Attempt(AliceTab, 2, NoFaults)];
    assert RunAsWritten(st1, attempts[1..]) == RunAsWritten(st2, []);
    assert RunAsWritten(st0, attempts) == st2;
    assert st2.orders[1..] == [NewOrder(AliceTab, 2)];
    assert OrderedPoints(st2.orders) == 80 + OrderedPoints([NewOrder(AliceTab, 2)]);
  }

  /** The same two tabs against the corrected checkout: the second is refused, one
      order of 80 is written and 20 points are left. */
  lemma {:induction false} AtomicRefusesSecondTab()
    ensures var fin := RunAtomic(Store([], [Alice]), [Attempt(AliceTab, 1, NoFaults), Attempt(AliceTab, 2, NoFaults)]);
      && OrderedPoints(fin.orders) == 80
      && BalanceOf(fin.employees, "e1") == Some(20)
  {
    var st0 := Store([], [Alice]);
    assert CartTotal(AliceTab.cart) == 80;
    var st1 := CheckoutAtomic(st0, AliceTab, 1, NoFaults).store;
    assert st1.orders == [NewOrder(AliceTab, 1)];
    assert BalanceOf(st1.employees, "e1") == Some(20);
    assert CheckoutAtomic(st1, AliceTab, 2, NoFaults).error == Some(InsufficientPoints);
    var attempts := [Attempt(AliceTab, 1, NoFaults), Attempt(AliceTab, 2, NoFaults)];
    assert attempts[1..] == [Attempt(AliceTab, 2, NoFaults)];
    assert RunAtomic(st1, attempts[1..]) == RunAtomic(st1, []);
    assert RunAtomic(st0, attempts) == st1;
  }

  /** When the balance write fails after the order write, the order stays and the
      balance is untouched: 80 points of goods for nothing. */
  lemma {:induction false} FailedDebitKeepsOrder()
    ensures var fin := RunAsWritten(Store([], [Alice]), [Attempt(AliceTab, 1, Faults(false, true))]);
      && OrderedPoints(fin.orders) == 80
      && BalanceOf(fin.employees, "e1") == Some(100)
  {
    var st0 := Store([], [Alice]);
    assert CartTotal(AliceTab.cart) == 80;
    var r := Checkout(st0, AliceTab, 1, Faults(false, true));
    assert r.store.orders == [NewOrder(AliceTab, 1)];
    assert RunAsWritten(st0, [Attempt(AliceTab, 1, Faults(false, true))]) == r.store;
  }

  /** The corrected checkout writes nothing when either half of its one write
      fails: no order without the debit, no debit without the order. */
  lemma {:induction false} AtomicFailureWritesNothing(st: Store, s: Session, createdAt: int, f: Faults)
    requires f.orderWriteFails || f.balanceWriteFails
    ensures CheckoutAtomic(st, s, createdAt, f).store == st
  {
  }
}

=== FILE: seqs.dfy ===
/** Sequence combinators with the meaning of JavaScript's `Array.prototype.filter`
    and `Array.prototype.reduce` (summing), and the facts the rest of the model uses. */
module Seqs {
  import opened Wrappers

  /** The elements of `s` that satisfy `keep`, in their original order. */
  function Filter<T>(s: seq<T>, keep: T -> bool): (r: seq<T>)
    ensures |r| <= |s|
    ensures forall i :: 0 <= i < |r| ==> keep(r[i])
  {
    if |s| == 0 then []
    else if keep(s[0]) then [s[0]] + Filter(s[1..], keep)
    else Filter(s[1..], keep)
  }

  /** The filter keeps exactly the elements that pass: everything it returns comes
      from `s`, and every element of `s` that passes is returned. */
  lemma {:induction false} FilterMembers<T>(s: seq<T>, keep: T -> bool)
    ensures forall i :: 0 <= i < |Filter(s, keep)| ==> Filter(s, keep)[i] in s
    ensures forall i :: 0 <= i < |s| && keep(s[i]) ==> s[i] in Filter(s, keep)
  {
    if |s| > 0 {
      FilterMembers(s[1..], keep);
      var rest := Filter(s[1..], keep);
      assert forall i :: 0 <= i < |rest| ==> rest[i] in s by {
        assert forall x :: x in s[1..] ==> x in s;
      }
      assert forall i :: 1 <= i < |s| ==> s[i] == s[1..][i - 1];
    }
  }

  /** Filtering distributes over concatenation: together with the one-element
      cases this pins down that the kept elements stay in their original order. */
  lemma {:induction false} FilterAppend<T>(a: seq<T>, b: seq<T>, keep: T -> bool)
    ensures Filter(a + b, keep) == Filter(a, keep) + Filter(b, keep)
  {
    if |a| == 0 {
      assert a + b == b;
    } else {
      assert (a + b)[0] == a[0];
      assert (a + b)[1..] == a[1..] + b;
      FilterAppend(a[1..], b, keep);
    }
  }

  /** Filtering keeps a sequence whose every element passes. */
  lemma {:induction false} FilterKeepsAll<T>(s: seq<T>, keep: T -> bool)
    requires forall i :: 0 <= i < |s| ==> keep(s[i])
    ensures Filter(s, keep) == s
  {
    if |s| > 0 {
      FilterKeepsAll(s[1..], keep);
    }
  }

  /** Filtering with a predicate that holds everywhere except at index `k` removes
      exactly that element. */
  lemma {:induction false} FilterDropsOne<T>(s: seq<T>, keep: T -> bool, k: nat)
    requires k < |s|
    requires !keep(s[k])
    requires forall i :: 0 <= i < |s| && i != k ==> keep(s[i])
    ensures Filter(s, keep) == s[..k] + s[k + 1..]
  {
    var t := s[1..];
    if k == 0 {
      assert forall i :: 0 <= i < |t| ==> t[i] == s[i + 1];
      FilterKeepsAll(t, keep);
      assert s[..0] + s[1..] == t;
    } else {
      assert forall i :: 0 <= i < |t| && i != k - 1 ==> t[i] == s[i + 1];
      FilterDropsOne(t, keep, k - 1);
      assert [s[0]] + (t[..k - 1] + t[k..]) == s[..k] + s[k + 1..] by {
        assert [s[0]] + t[..k - 1] == s[..k];
        assert t[k..] == s[k + 1..];
      }
    }
  }

  /** The sum of `f` over `s`, as `s.reduce((sum, x) => sum + f(x), 0)`. */
  function Sum<T>(s: seq<T>, f: T -> int): (r: int)
    ensures |s| == 0 ==> r == 0
  {
    if |s| == 0 then 0 else f(s[0]) + Sum(s[1..], f)
  }

  /** A sum of terms none of which is negative is not negative. */
  lemma {:induction false} SumNonNegative<T>(s: seq<T>, f: T -> int)
    requires forall i :: 0 <= i < |s| ==> f(s[i]) >= 0
    ensures Sum(s, f) >= 0
  {
    if |s| > 0 {
      assert forall i :: 0 <= i < |s| - 1 ==> s[1..][i] == s[i + 1];
      SumNonNegative(s[1..], f);
    }
  }

  /** Summing distributes over concatenation. */
  lemma {:induction false} SumAppend<T>(a: seq<T>, b: seq<T>, f: T -> int)
    ensures Sum(a + b, f) == Sum(a, f) + Sum(b, f)
  {
    if |a| == 0 {
      assert a + b == b;
    } else {
      assert (a + b)[0] == a[0];
      assert (a + b)[1..] == a[1..] + b;
      SumAppend(a[1..], b, f);
    }
  }

  /** Replacing one element changes the sum by the difference of the two terms. */
  lemma {:induction false} SumUpdate<T>(s: seq<T>, k: nat, x: T, f: T -> int)
    requires k < |s|
    ensures Sum(s[k := x], f) == Sum(s, f) - f(s[k]) + f(x)
  {
    var u := s[k := x];
    if k == 0 {
      assert u[1..] == s[1..];
    } else {
      assert u[1..] == s[1..][k - 1 := x];
      SumUpdate(s[1..], k - 1, x, f);
    }
  }

  /** Removing one element lowers the sum by its term. */
  lemma {:induction false} SumRemove<T>(s: seq<T>, k: nat, f: T -> int)
    requires k < |s|
    ensures Sum(s[..k] + s[k + 1..], f) == Sum(s, f) - f(s[k])
  {
    var r := s[..k] + s[k + 1..];
    var t := s[1..];
    if k == 0 {
      assert r == t;
    } else {
      SumRemove(t, k - 1, f);
      assert r[0] == s[0];
      assert r[1..] == t[..k - 1] + t[k..];
    }
  }

  lemma {:induction false} SumCons<T>(x: T, b: seq<T>, f: T -> int)
    ensures Sum([x] + b, f) == f(x) + Sum(b, f)
  {
    assert ([x] + b)[1..] == b;
  }

  /** The index of the first element satisfying `p`, as a query's `docs[0]` or
      `Array.prototype.find`. */
  function FindIndex<T>(s: seq<T>, p: T -> bool): (k: Option<nat>)
    ensures k.Some? ==> k.value < |s| && p(s[k.value])
    ensures k.Some? ==> forall j :: 0 <= j < k.value ==> !p(s[j])
    ensures k.None? <==> forall j :: 0 <= j < |s| ==> !p(s[j])
  {
    if |s| == 0 then None
    else if p(s[0]) then Some(0)
    else match FindIndex(s[1..], p)
      case None => None
      case Some(k) => Some(k + 1)
  }

  /** The first index that satisfies `p` is what `FindIndex` returns. */
  lemma {:induction false} FindIndexAt<T>(s: seq<T>, p: T -> bool, k: nat)
    requires k < |s| && p(s[k])
    requires forall j :: 0 <= j < k ==> !p(s[j])
    ensures FindIndex(s, p) == Some(k)
  {
  }

  /** `k` is the first index of `s` whose element satisfies `p`. */
  predicate IsFirst<T>(s: seq<T>, p: T -> bool, k: nat) {
    k < |s| && p(s[k]) && forall j :: 0 <= j < k ==> !p(s[j])
  }

  /** `FindIndex` returns exactly the first index that satisfies `p`. */
  lemma {:induction false} FindIndexIsFirst<T>(s: seq<T>, p: T -> bool)
    ensures forall k: nat :: IsFirst(s, p, k) <==> FindIndex(s, p) == Some(k)
  {
  }

  /** Two sequences on which `p` and `q` give the same verdicts, index by index,
      have the same first match. */
  lemma {:induction false} FindIndexAgree<T>(s: seq<T>, t: seq<T>, p: T -> bool, q: T -> bool)
    requires |s| == |t| && forall i :: 0 <= i < |s| ==> p(s[i]) == q(t[i])
    ensures FindIndex(s, p) == FindIndex(t, q)
  {
  }

  /** The defined results of `f` over `s`, in order: a loop that pushes a record
      for every element it accepts. */
  function FilterMap<T, U>(s: seq<T>, f: T -> Option<U>): (r: seq<U>)
    ensures |r| <= |s|
  {
    if |s| == 0 then []
    else
      var rest := FilterMap(s[1..], f);
      match f(s[0])
      case None => rest
      case Some(u) => [u] + rest
  }

  lemma {:induction false} FilterMapAppend<T, U>(a: seq<T>, b: seq<T>, f: T -> Option<U>)
    ensures FilterMap(a + b, f) == FilterMap(a, f) + FilterMap(b, f)
  {
    if |a| > 0 {
      assert (a + b)[0] == a[0];
      assert (a + b)[1..] == a[1..] + b;
      FilterMapAppend(a[1..], b, f);
      match f(a[0]) {
        case None =>
        case Some(u) =>
          assert [u] + FilterMap(a[1..], f) + FilterMap(b, f) == [u] + (FilterMap(a[1..], f) + FilterMap(b, f));
      }
    } else {
      assert a + b == b;
    }
  }

  /** When every element is accepted, the results are exactly the given ones. */
  lemma {:induction false} FilterMapAllDefined<T, U>(s: seq<T>, f: T -> Option<U>, out: seq<U>)
    requires |s| == |out|
    requires forall i :: 0 <= i < |s| ==> f(s[i]) == Some(out[i])
    ensures FilterMap(s, f) == out
  {
    if |s| > 0 {
      FilterMapAllDefined(s[1..], f, out[1..]);
    }
  }

  /** Nothing passes a filter nobody satisfies. */
  lemma {:induction false} FilterNone<T>(s: seq<T>, keep: T -> bool)
    requires forall i :: 0 <= i < |s| ==> !keep(s[i])
    ensures Filter(s, keep) == []
  {
    if |s| > 0 {
      FilterNone(s[1..], keep);
    }
  }

  /** Filtering by a predicate that is the disjoint union of two others splits
      the sum in two. */
  lemma {:induction false} SumFilterOr<T>(s: seq<T>, keep: T -> bool, p: T -> bool, q: T -> bool, f: T -> int)
    requires forall i :: 0 <= i < |s| ==> (keep(s[i]) <==> p(s[i]) || q(s[i]))
    requires forall i :: 0 <= i < |s| ==> !(p(s[i]) && q(s[i]))
    ensures Sum(Filter(s, keep), f) == Sum(Filter(s, p), f) + Sum(Filter(s, q), f)
  {
    if |s| > 0 {
      SumFilterOr(s[1..], keep, p, q, f);
    }
  }

  /** Filters and sums see only the predicate's verdicts and the summed values:
      two sequences that agree on both agree on the result. */
  lemma {:induction false} FilterSumAgree<T>(a: seq<T>, b: seq<T>, keep: T -> bool, f: T -> int)
    requires |a| == |b|
    requires forall i :: 0 <= i < |a| ==> keep(a[i]) == keep(b[i]) && f(a[i]) == f(b[i])
    ensures |Filter(a, keep)| == |Filter(b, keep)|
    ensures Sum(Filter(a, keep), f) == Sum(Filter(b, keep), f)
  {
    if |a| > 0 {
      FilterSumAgree(a[1..], b[1..], keep, f);
    }
  }

  /** Filtering twice is filtering by the conjunction. */
  lemma {:induction false} FilterFilter<T>(s: seq<T>, p: T -> bool, q: T -> bool, both: T -> bool)
    requires forall i :: 0 <= i < |s| ==> (both(s[i]) <==> p(s[i]) && q(s[i]))
    ensures Filter(Filter(s, p), q) == Filter(s, both)
  {
    if |s| > 0 {
      FilterFilter(s[1..], p, q, both);
    }
  }

  /** Replacing one element changes the number of kept elements by at most the
      verdicts on the old and the new element. */
  lemma {:induction false} FilterCountUpdate<T>(s: seq<T>, k: nat, x: T, keep: T -> bool)
    requires k < |s|
    ensures |Filter(s[k := x], keep)| ==
      |Filter(s, keep)| - (if keep(s[k]) then 1 else 0) + (if keep(x) then 1 else 0)
  {
    var a, b := s[..k], s[k + 1..];
    assert s == a + ([s[k]] + b);
    assert s[k := x] == a + ([x] + b);
    FilterAppend(a, [s[k]] + b, keep);
    FilterAppend([s[k]], b, keep);
    FilterAppend(a, [x] + b, keep);
    FilterAppend([x], b, keep);
  }

  /** A filter comes out empty exactly when no element passes. */
  lemma {:induction false} FilterEmptyIff<T>(s: seq<T>, keep: T -> bool)
    ensures |Filter(s, keep)| == 0 <==> forall i :: 0 <= i < |s| ==> !keep(s[i])
  {
    if |s| > 0 {
      FilterEmptyIff(s[1..], keep);
      assert forall i :: 1 <= i < |s| ==> s[i] == s[1..][i - 1];
    }
  }
}

=== FILE: src_storefront.dfy ===
/** The employee storefront of `src/`: the company page is looked up by slug and
    shown only for an approved corporate, with the products its settings select;
    an employee signs in by email alone, fills a cart and checks out, which writes
    an order with a snapshot of the cart and then the employee's new points. */
module SrcStorefront {
  import opened Wrappers
  import Seqs
  import Text

  /** A document of the `users` collection; corporates carry a slug and a status. */
  datatype User = User(
    id: string, role: string, companyName: string, contactName: string,
    email: string, slug: string, status: string)

  /** A corporate's `corporateSettings` document; the selection may be missing. */
  datatype Settings = Settings(corporateId: string, selectedProducts: Option<seq<string>>)

  /** An `employees` document; the points are `None` where the corporate dashboard
      stored `parseInt`'s `NaN`. */
  datatype Employee = Employee(id: string, email: string, name: string, points: Option<int>, corporateId: string)

  datatype Product = Product(
    id: string, name: string, description: string, pointCost: int, stock: int,
    category: string, imageUrl: string, status: string)

  datatype CartItem = CartItem(product: Product, quantity: int)

  type Cart = seq<CartItem>

  /** The copy of a cart line an order keeps. */
  datatype OrderLine = OrderLine(id: string, name: string, pointCost: int, quantity: int)

  datatype ShippingAddress = ShippingAddress(
    fullName: string, phone: string, addressLine1: string, addressLine2: string,
    city: string, state: string, zipCode: string, country: string)

  datatype Order = Order(
    employeeId: string, employeeName: string, employeeEmail: string,
    corporateId: string, corporateName: string, products: seq<OrderLine>,
    totalPoints: int, shippingAddress: ShippingAddress, status: string, createdAt: int)

  datatype Store = Store(
    users: seq<User>, settings: seq<Settings>, products: seq<Product>,
    employees: seq<Employee>, orders: seq<Order>)

  // ---------------------------------------------------------------- the company page

  /** A product an employee of a corporate with selection `selected` may see. */
  predicate Visible(p: Product, selected: seq<string>) {
    p.id in selected && p.status == "active" && p.stock > 0
  }

  /** The catalog filter of `loadCompanyData`. */
  function VisibleProducts(all: seq<Product>, selected: seq<string>): (r: seq<Product>)
    ensures forall i :: 0 <= i < |r| ==> r[i] in all && Visible(r[i], selected)
    ensures forall i :: 0 <= i < |all| && Visible(all[i], selected) ==> all[i] in r
  {
    var keep := (p: Product) => Visible(p, selected);
    Seqs.FilterMembers(all, keep);
    Seqs.Filter(all, keep)
  }

  /** The filter keeps catalog order: the visible part of a concatenation is the
      concatenation of the visible parts. */
  lemma {:induction false} VisibleKeepsOrder(a: seq<Product>, b: seq<Product>, selected: seq<string>)
    ensures VisibleProducts(a + b, selected) == VisibleProducts(a, selected) + VisibleProducts(b, selected)
  {
    Seqs.FilterAppend(a, b, p => Visible(p, selected));
  }

  predicate IsCorporateWithSlug(u: User, slug: string) {
    u.role == "corporate" && u.slug == slug
  }

  function CorporateWithSlug(slug: string): User -> bool {
    (u: User) => IsCorporateWithSlug(u, slug)
  }

  /** The products a corporate's page shows: none without settings or with an
      empty or missing selection, otherwise the visible ones in catalog order. */
  function CatalogFor(settings: seq<Settings>, products: seq<Product>, corporateId: string): (r: seq<Product>)
    ensures forall i :: 0 <= i < |r| ==> r[i] in products && r[i].status == "active" && r[i].stock > 0
    ensures Seqs.FindIndex(settings, (x: Settings) => x.corporateId == corporateId).None? ==> r == []
    ensures forall k :: Seqs.FindIndex(settings, (x: Settings) => x.corporateId == corporateId) == Some(k) ==>
      && (settings[k].selectedProducts.None? ==> r == [])
      && (settings[k].selectedProducts == Some([]) ==> r == [])
      && (settings[k].selectedProducts.Some? && |settings[k].selectedProducts.value| > 0 ==>
            r == VisibleProducts(products, settings[k].selectedProducts.value))
  {
    match Seqs.FindIndex(settings, (x: Settings) => x.corporateId == corporateId)
    case None => []
    case Some(k) =>
      match settings[k].selectedProducts
      case None => []
      case Some(selected) =>
        if |selected| > 0 then VisibleProducts(products, selected) else []
  }

  datatype Page = Page(corporate: User, catalog: seq<Product>)

  datatype LoadError = CompanyNotFound | NotYetAvailable

  /** `loadCompanyData`: the first corporate with the slug; an error when there is
      none or when it is not approved, and then no corporate or catalog is shown. */
  function LoadCompany(st: Store, slug: string): (r: Result<Page, LoadError>)
    ensures r == Err(CompanyNotFound) <==>
      forall i :: 0 <= i < |st.users| ==> !IsCorporateWithSlug(st.users[i], slug)
    ensures r.Ok? ==>
      && r.value.corporate in st.users
      && IsCorporateWithSlug(r.value.corporate, slug)
      && r.value.corporate.status == "approved"
      && r.value.catalog == CatalogFor(st.settings, st.products, r.value.corporate.id)
    ensures r.Ok? <==> exists k: nat ::
      Seqs.IsFirst(st.users, CorporateWithSlug(slug), k) && st.users[k].status == "approved"
    ensures r.Ok? ==> exists k: nat ::
      Seqs.IsFirst(st.users, CorporateWithSlug(slug), k) && st.users[k] == r.value.corporate
    ensures r == Err(NotYetAvailable) <==> exists k: nat ::
      Seqs.IsFirst(st.users, CorporateWithSlug(slug), k) && st.users[k].status != "approved"
  {
    Seqs.FindIndexIsFirst(st.users, CorporateWithSlug(slug));
    match Seqs.FindIndex(st.users, CorporateWithSlug(slug))
    case None => Err(CompanyNotFound)
    case Some(k) =>
      var corporate := st.users[k];
      if corporate.status != "approved" then Err(NotYetAvailable)
      else Ok(Page(corporate, CatalogFor(st.settings, st.products, corporate.id)))
  }

  /** The catalog of the first example: selection {p1, p3} over p1..p4, p4 inactive. */
  lemma {:induction false} SelectionExample()
    ensures var p1 := Product("p1", "A", "", 10, 5, "", "", "active");
      var p2 := Product("p2", "B", "", 10, 5, "", "", "active");
      var p3 := Product("p3", "C", "", 10, 5, "", "", "active");
      var p4 := Product("p4", "D", "", 10, 5, "", "", "inactive");
      VisibleProducts([p1, p2, p3, p4], ["p1", "p3"]) == [p1, p3]
  {
    var p1 := Product("p1", "A", "", 10, 5, "", "", "active");
    var p2 := Product("p2", "B", "", 10, 5, "", "", "active");
    var p3 := Product("p3", "C", "", 10, 5, "", "", "active");
    var p4 := Product("p4", "D", "", 10, 5, "", "", "inactive");
    var sel := ["p1", "p3"];
    assert [p1, p2, p3, p4] == [p1] + [p2] + [p3] + [p4];
    VisibleKeepsOrder([p1] + [p2] + [p3], [p4], sel);
    VisibleKeepsOrder([p1] + [p2], [p3], sel);
    VisibleKeepsOrder([p1], [p2], sel);
    assert "p2" !in sel;
  }

  // ------------------------------------------------------------------------- sign-in

  datatype LoginResult = Ignored | UnknownEmployee | SignedInAs(employee: Employee)

  predicate EmployeeKey(e: Employee, email: string, corporateId: string) {
    e.email == email && e.corporateId == corporateId
  }

  function EmployeeWithKey(email: string, corporateId: string): Employee -> bool {
    (e: Employee) => EmployeeKey(e, email, corporateId)
  }

  /** `handleEmployeeLogin`: nothing for a blank email or before the company is
      loaded; otherwise the first employee of that corporate whose stored email is
      the typed one lower-cased and trimmed. */
  function Login(st: Store, corporate: Option<User>, typed: string): (r: LoginResult)
    ensures r == Ignored <==> Text.AllSpace(typed) || corporate.None?
    ensures r.SignedInAs? ==>
      && r.employee in st.employees
      && EmployeeKey(r.employee, Text.Trim(Text.ToLower(typed)), corporate.value.id)
    ensures r.SignedInAs? ==> exists k: nat ::
      && Seqs.IsFirst(st.employees, EmployeeWithKey(Text.Trim(Text.ToLower(typed)), corporate.value.id), k)
      && st.employees[k] == r.employee
    ensures r == UnknownEmployee ==> forall i :: 0 <= i < |st.employees| ==>
      !EmployeeKey(st.employees[i], Text.Trim(Text.ToLower(typed)), corporate.value.id)
  {
    if |Text.Trim(typed)| == 0 || corporate.None? then Ignored
    else
      FindEmployee(st.employees, Text.Trim(Text.ToLower(typed)), corporate.value.id)
  }

  /** The employee query of `handleEmployeeLogin`. */
  function FindEmployee(employees: seq<Employee>, email: string, corporateId: string): (r: LoginResult)
    ensures r != Ignored
    ensures r.SignedInAs? ==> r.employee in employees && EmployeeKey(r.employee, email, corporateId)
    ensures r.SignedInAs? ==> exists k: nat ::
      Seqs.IsFirst(employees, EmployeeWithKey(email, corporateId), k) && employees[k] == r.employee
    ensures r == UnknownEmployee ==> forall i :: 0 <= i < |employees| ==> !EmployeeKey(employees[i], email, corporateId)
  {
    Seqs.FindIndexIsFirst(employees, EmployeeWithKey(email, corporateId));
    match Seqs.FindIndex(employees, EmployeeWithKey(email, corporateId))
    case None => UnknownEmployee
    case Some(k) => SignedInAs(employees[k])
  }

  /** Employees added later, such as a second upload of the same CSV, never change
      who signs in: the first matching document keeps winning. */
  lemma {:induction false} LoginIgnoresLater(st: Store, corporate: Option<User>, typed: string, more: seq<Employee>)
    requires Login(st, corporate, typed).SignedInAs?
    ensures Login(st.(employees := st.employees + more), corporate, typed) == Login(st, corporate, typed)
  {
    FindEmployeeIgnoresLater(st.employees, more, Text.Trim(Text.ToLower(typed)), corporate.value.id);
  }

  lemma {:induction false} FindEmployeeIgnoresLater(employees: seq<Employee>, more: seq<Employee>, email: string, corporateId: string)
    requires FindEmployee(employees, email, corporateId).SignedInAs?
    ensures FindEmployee(employees + more, email, corporateId) == FindEmployee(employees, email, corporateId)
  {
    var key := EmployeeWithKey(email, corporateId);
    var k := Seqs.FindIndex(employees, key).value;
    var all := employees + more;
    assert forall j :: 0 <= j < k ==> all[j] == employees[j];
    Seqs.FindIndexAt(all, key, k);
  }

  // ---------------------------------------------------------------------------- cart

  /** One line per product, each for at least one unit. */
  predicate ValidCart(c: Cart) {
    && (forall i :: 0 <= i < |c| ==> c[i].quantity >= 1)
    && (forall i, j :: 0 <= i < j < |c| ==> c[i].product.id != c[j].product.id)
  }

  function Find(c: Cart, id: string): (k: Option<nat>)
    ensures k.Some? ==> k.value < |c| && c[k.value].product.id == id
    ensures k.None? <==> forall j :: 0 <= j < |c| ==> c[j].product.id != id
  {
    Seqs.FindIndex(c, (item: CartItem) => item.product.id == id)
  }

  /** `addToCart`: one more unit on the product's line, or a new line of one unit. */
  function AddToCart(c: Cart, p: Product): (r: Cart)
    ensures Find(c, p.id).None? ==> r == c + [CartItem(p, 1)]
    ensures ValidCart(c) && Find(c, p.id).Some? ==>
      var k := Find(c, p.id).value;
      r == c[k := c[k].(quantity := c[k].quantity + 1)]
    ensures ValidCart(c) ==> ValidCart(r)
  {
    match Find(c, p.id)
    case Some(k) =>
      var r := seq(|c|, i requires 0 <= i < |c| =>
        if c[i].product.id == p.id then c[i].(quantity := c[i].quantity + 1) else c[i]);
      assert ValidCart(c) ==> r == c[k := c[k].(quantity := c[k].quantity + 1)];
      r
    case None => c + [CartItem(p, 1)]
  }

  /** The cart without the line for `id`, the other lines in order. */
  function DropLine(c: Cart, id: string): (r: Cart)
    ensures forall j :: 0 <= j < |r| ==> r[j].product.id != id
    ensures Find(c, id).None? ==> r == c
    ensures ValidCart(c) && Find(c, id).Some? ==> r == c[..Find(c, id).value] + c[Find(c, id).value + 1..]
    ensures ValidCart(c) ==> ValidCart(r)
  {
    var keep := (item: CartItem) => item.product.id != id;
    var r := Seqs.Filter(c, keep);
    match Find(c, id)
    case None => Seqs.FilterKeepsAll(c, keep); r
    case Some(k) => if ValidCart(c) then Seqs.FilterDropsOne(c, keep, k); r else r
  }

  /** The cart with the line for `id` set to `quantity` units. */
  function SetQuantity(c: Cart, id: string, quantity: int): (r: Cart)
    requires quantity > 0
    ensures Find(c, id).None? ==> r == c
    ensures ValidCart(c) && Find(c, id).Some? ==>
      var k := Find(c, id).value;
      r == c[k := c[k].(quantity := quantity)]
    ensures ValidCart(c) ==> ValidCart(r)
  {
    var r := seq(|c|, i requires 0 <= i < |c| =>
      if c[i].product.id == id then c[i].(quantity := quantity) else c[i]);
    match Find(c, id)
    case None => assert r == c; r
    case Some(k) => assert ValidCart(c) ==> r == c[k := c[k].(quantity := quantity)]; r
  }

  /** `updateCartQuantity`: zero or less drops the product's line, keeping the others
      in order; a positive quantity replaces that line's quantity only. */
  function UpdateCartQuantity(c: Cart, id: string, quantity: int): (r: Cart)
    ensures quantity <= 0 ==> forall j :: 0 <= j < |r| ==> r[j].product.id != id
    ensures Find(c, id).None? ==> r == c
    ensures ValidCart(c) && Find(c, id).Some? ==>
      var k := Find(c, id).value;
      r == if quantity <= 0 then c[..k] + c[k + 1..] else c[k := c[k].(quantity := quantity)]
    ensures ValidCart(c) ==> ValidCart(r)
  {
    if quantity <= 0 then DropLine(c, id) else SetQuantity(c, id, quantity)
  }

  function LineCost(item: CartItem): int {
    item.product.pointCost * item.quantity
  }

  /** `getTotalPoints`. */
  function CartTotal(c: Cart): (t: int)
    ensures |c| == 0 ==> t == 0
    ensures (forall i :: 0 <= i < |c| ==> c[i].product.pointCost >= 0 && c[i].quantity >= 0) ==> t >= 0
  {
    var t := Seqs.Sum(c, LineCost);
    assert (forall i :: 0 <= i < |c| ==> c[i].product.pointCost >= 0 && c[i].quantity >= 0) ==> t >= 0 by {
      if forall i :: 0 <= i < |c| ==> c[i].product.pointCost >= 0 && c[i].quantity >= 0 {
        Seqs.SumNonNegative(c, LineCost);
      }
    }
    t
  }

  /** Changing a quantity replaces the cost of that one line, and a quantity of
      zero or less takes the line's cost off the total. */
  lemma {:induction false} TotalAfterUpdate(c: Cart, id: string, quantity: int)
    requires ValidCart(c)
    ensures CartTotal(UpdateCartQuantity(c, id, quantity)) == CartTotal(c) +
      match Find(c, id)
      case Some(k) => (if quantity <= 0 then 0 else c[k].product.pointCost * quantity) - LineCost(c[k])
      case None => 0
  {
    match Find(c, id)
    case Some(k) =>
      if quantity <= 0 {
        Seqs.SumRemove(c, k, LineCost);
      } else {
        Seqs.SumUpdate(c, k, c[k].(quantity := quantity), LineCost);
      }
    case None =>
  }

  function Quantity(item: CartItem): int {
    item.quantity
  }

  /** The number on the cart badge: shown only for a non-empty cart, and then the
      number of units, never fewer than the number of lines. */
  function Badge(c: Cart): (r: Option<int>)
    ensures r.None? <==> |c| == 0
    ensures ValidCart(c) && r.Some? ==> r.value >= |c|
  {
    if |c| == 0 then None
    else
      var n := Seqs.Sum(c, Quantity);
      assert ValidCart(c) ==> n >= |c| by {
        if ValidCart(c) { UnitsAtLeastLines(c); }
      }
      Some(n)
  }

  lemma {:induction false} UnitsAtLeastLines(c: Cart)
    requires forall i :: 0 <= i < |c| ==> c[i].quantity >= 1
    ensures Seqs.Sum(c, Quantity) >= |c|
  {
    if |c| > 0 {
      UnitsAtLeastLines(c[1..]);
    }
  }

  /** Adding a product shows one more unit on the badge. */
  lemma {:induction false} BadgeAfterAdd(c: Cart, p: Product)
    requires ValidCart(c)
    ensures Badge(AddToCart(c, p)) == Some(Seqs.Sum(c, Quantity) + 1)
  {
    var r := AddToCart(c, p);
    assert Badge(r) == Some(Seqs.Sum(r, Quantity));
    match Find(c, p.id)
    case Some(k) =>
      UnitsAfterBump(c, k);
    case None =>
      UnitsAfterAppend(c, CartItem(p, 1));
  }

  lemma {:induction false} UnitsAfterBump(c: Cart, k: nat)
    requires k < |c|
    ensures Seqs.Sum(c[k := c[k].(quantity := c[k].quantity + 1)], Quantity) == Seqs.Sum(c, Quantity) + 1
  {
    Seqs.SumUpdate(c, k, c[k].(quantity := c[k].quantity + 1), Quantity);
  }

  lemma {:induction false} UnitsAfterAppend(c: Cart, item: CartItem)
    ensures Seqs.Sum(c + [item], Quantity) == Seqs.Sum(c, Quantity) + item.quantity
  {
    Seqs.SumAppend(c, [item], Quantity);
    assert [item][1..] == [];
  }

  /** `total > points` as JavaScript evaluates it: never true when the points are
      `NaN`. */
  predicate Exceeds(total: int, points: Option<int>) {
    points.Some? && total > points.value
  }

  /** `points - total`: `NaN` stays `NaN`. */
  function Minus(points: Option<int>, total: int): (r: Option<int>)
    ensures r.Some? <==> points.Some?
    ensures r.Some? ==> r.value + total == points.value
  {
    match points
    case None => None
    case Some(v) => Some(v - total)
  }

  /** `employee?.points || 0`: a missing employee and `NaN` points both read as 0. */
  function ShownPoints(employee: Option<Employee>): int {
    if employee.Some? && employee.value.points.Some? then employee.value.points.value else 0
  }

  /** "Proceed to Checkout" is offered unless the total exceeds the points shown. */
  function CanProceed(c: Cart, employee: Option<Employee>): bool {
    !(CartTotal(c) > ShownPoints(employee))
  }

  // ------------------------------------------------------------------------ checkout

  /** The order's copy of the cart, line for line. */
  function OrderLines(c: Cart): (r: seq<OrderLine>)
    ensures |r| == |c|
    ensures forall i :: 0 <= i < |c| ==>
      r[i].id == c[i].product.id && r[i].name == c[i].product.name
      && r[i].pointCost == c[i].product.pointCost && r[i].quantity == c[i].quantity
  {
    seq(|c|, i requires 0 <= i < |c| =>
      OrderLine(c[i].product.id, c[i].product.name, c[i].product.pointCost, c[i].quantity))
  }

  function OrderLineCost(l: OrderLine): int {
    l.pointCost * l.quantity
  }

  /** The order's recorded total agrees with its own lines. */
  lemma {:induction false} OrderLinesTotal(c: Cart)
    ensures Seqs.Sum(OrderLines(c), OrderLineCost) == CartTotal(c)
  {
    if |c| > 0 {
      assert OrderLines(c)[1..] == OrderLines(c[1..]);
      OrderLinesTotal(c[1..]);
    }
  }

  datatype Session = Session(
    employee: Option<Employee>, corporate: Option<User>, cart: Cart, address: ShippingAddress)

  datatype Faults = Faults(orderWriteFails: bool, pointsWriteFails: bool)

  datatype CheckoutError =
    | InsufficientPoints  // "Insufficient points for this order"
    | OrderNotSaved       // the order write failed
    | PointsNotSaved      // the points write failed after the order was written
    | EmployeeNotFound    // corrected checkout: no employee document to read
    | PointsNotANumber    // corrected checkout: the stored points are `NaN`
    | TransactionFailed   // corrected checkout: the combined write failed

  datatype Outcome = Outcome(store: Store, session: Session, error: Option<CheckoutError>)

  predicate Ready(s: Session) {
    s.employee.Some? && s.corporate.Some?
  }

  function HasId(id: string): Employee -> bool {
    (e: Employee) => e.id == id
  }

  /** The points of the employee document `id` (`Some(None)` for `NaN`), or `None`
      when there is no such document. */
  function PointsOf(employees: seq<Employee>, id: string): (r: Option<Option<int>>)
    ensures r.Some? <==> exists i :: 0 <= i < |employees| && employees[i].id == id
  {
    match Seqs.FindIndex(employees, HasId(id))
    case None => None
    case Some(k) => Some(employees[k].points)
  }

  function SetPoints(employees: seq<Employee>, id: string, v: Option<int>): (r: seq<Employee>)
    ensures |r| == |employees|
    ensures forall i :: 0 <= i < |r| ==>
      r[i] == if employees[i].id == id then employees[i].(points := v) else employees[i]
  {
    seq(|employees|, i requires 0 <= i < |employees| =>
      if employees[i].id == id then employees[i].(points := v) else employees[i])
  }

  /** `after` is `before` with nothing changed but the points of the documents `id`. */
  predicate OnlyPointsOf(before: seq<Employee>, after: seq<Employee>, id: string) {
    && |after| == |before|
    && forall i :: 0 <= i < |before| ==>
         after[i] == if before[i].id == id then before[i].(points := after[i].points) else before[i]
  }

  /** Writing the points of `id` changes no other document and no other points. */
  lemma {:induction false} SetPointsFrame(employees: seq<Employee>, id: string, v: Option<int>)
    ensures OnlyPointsOf(employees, SetPoints(employees, id, v), id)
    ensures forall other :: other != id ==> PointsOf(SetPoints(employees, id, v), other) == PointsOf(employees, other)
  {
    var r := SetPoints(employees, id, v);
    forall other | other != id
      ensures PointsOf(r, other) == PointsOf(employees, other)
    {
      assert forall i :: 0 <= i < |r| ==> r[i].id == employees[i].id;
      Seqs.FindIndexAgree(employees, r, HasId(other), HasId(other));
    }
  }

  lemma {:induction false} PointsAfterSet(employees: seq<Employee>, id: string, v: Option<int>)
    requires PointsOf(employees, id).Some?
    ensures PointsOf(SetPoints(employees, id, v), id) == Some(v)
  {
    var r := SetPoints(employees, id, v);
    var k := Seqs.FindIndex(employees, HasId(id)).value;
    assert forall j :: 0 <= j < k ==> r[j].id == employees[j].id;
    Seqs.FindIndexAt(r, HasId(id), k);
  }

  /** The order `handleCheckout` writes. */
  function NewOrder(s: Session, createdAt: int): (o: Order)
    requires Ready(s)
    ensures o.totalPoints == Seqs.Sum(o.products, OrderLineCost)
  {
    OrderLinesTotal(s.cart);
    var emp := s.employee.value;
    var corp := s.corporate.value;
    Order(emp.id, emp.name, emp.email, corp.id, corp.companyName, OrderLines(s.cart),
          CartTotal(s.cart), s.address, "pending", createdAt)
  }

  /** The successful end of a checkout: the order is appended, the employee's
      document gets the points `left`, the cart empties, and nothing else changes. */
  function Commit(st: Store, s: Session, createdAt: int, left: Option<int>): (r: Outcome)
    requires Ready(s) && PointsOf(st.employees, s.employee.value.id).Some?
    ensures var emp := s.employee.value;
      && r.error.None?
      && r.store.orders == st.orders + [NewOrder(s, createdAt)]
      && PointsOf(r.store.employees, emp.id) == Some(left)
      && OnlyPointsOf(st.employees, r.store.employees, emp.id)
      && (forall other :: other != emp.id ==> PointsOf(r.store.employees, other) == PointsOf(st.employees, other))
      && r.store.users == st.users && r.store.settings == st.settings && r.store.products == st.products
      && r.session == s.(cart := [], employee := Some(emp.(points := left)))
  {
    var emp := s.employee.value;
    PointsAfterSet(st.employees, emp.id, left);
    SetPointsFrame(st.employees, emp.id, left);
    Outcome(st.(employees := SetPoints(st.employees, emp.id, left), orders := st.orders + [NewOrder(s, createdAt)]),
            s.(cart := [], employee := Some(emp.(points := left))), None)
  }

  /** `handleCheckout`: refuse a total above the page's copy of the points (`NaN`
      points are never exceeded), then write the order, then write that copy minus
      the total. */
  function Checkout(st: Store, s: Session, createdAt: int, f: Faults): (r: Outcome)
    ensures !Ready(s) ==> r == Outcome(st, s, None)
    ensures r.error.Some? && r.error != Some(PointsNotSaved) ==> r.store == st && r.session == s
    ensures r.error == Some(InsufficientPoints) <==>
      Ready(s) && Exceeds(CartTotal(s.cart), s.employee.value.points)
    ensures r.error != Some(EmployeeNotFound) && r.error != Some(PointsNotANumber)
      && r.error != Some(TransactionFailed)
    ensures r.error == Some(PointsNotSaved) ==>
      && r.store == st.(orders := st.orders + [NewOrder(s, createdAt)])
      && r.session == s
    ensures Ready(s) && r.error.None? ==>
      var emp := s.employee.value;
      var o := NewOrder(s, createdAt);
      var left := Minus(emp.points, CartTotal(s.cart));
      && r.store.orders == st.orders + [o]
      && o.status == "pending" && o.totalPoints == CartTotal(s.cart)
      && o.products == OrderLines(s.cart)
      && PointsOf(r.store.employees, emp.id) == Some(left) && (left.Some? ==> left.value >= 0)
      && OnlyPointsOf(st.employees, r.store.employees, emp.id)
      && (forall other :: other != emp.id ==> PointsOf(r.store.employees, other) == PointsOf(st.employees, other))
      && r.store.users == st.users && r.store.settings == st.settings && r.store.products == st.products
      && r.session == s.(cart := [], employee := Some(emp.(points := left)))
    ensures (&& Ready(s) && !Exceeds(CartTotal(s.cart), s.employee.value.points)
             && !f.orderWriteFails && !f.pointsWriteFails
             && PointsOf(st.employees, s.employee.value.id).Some?) ==> r.error.None?
  {
    if !Ready(s) then Outcome(st, s, None)
    else
      var emp := s.employee.value;
      var total := CartTotal(s.cart);
      if Exceeds(total, emp.points) then Outcome(st, s, Some(InsufficientPoints))
      else if f.orderWriteFails then Outcome(st, s, Some(OrderNotSaved))
      else
        var withOrder := st.(orders := st.orders + [NewOrder(s, createdAt)]);
        if f.pointsWriteFails || PointsOf(st.employees, emp.id).None? then
          Outcome(withOrder, s, Some(PointsNotSaved))
        else
          Commit(st, s, createdAt, Minus(emp.points, total))
  }

  /** For numeric points the page offers checkout exactly when the handler does not
      refuse it for insufficient points. */
  lemma {:induction false} GateAgreesWithCheckout(st: Store, s: Session, createdAt: int, f: Faults)
    requires Ready(s) && s.employee.value.points.Some?
    ensures CanProceed(s.cart, s.employee) <==> Checkout(st, s, createdAt, f).error != Some(InsufficientPoints)
  {
  }

  /** Whatever the points, `NaN` included, the page never offers a checkout that the
      handler then refuses for insufficient points. */
  lemma {:induction false} GateNeverOffersRefused(st: Store, s: Session, createdAt: int, f: Faults)
    requires Ready(s)
    ensures CanProceed(s.cart, s.employee) ==> Checkout(st, s, createdAt, f).error != Some(InsufficientPoints)
  {
  }

  /** With `NaN` points the page and the handler disagree: the page hides checkout
      for any cart that costs something, while the handler accepts it, writes the
      order and stores `NaN` as the new points. */
  lemma {:induction false} NanPointsCheckoutAccepted(st: Store, s: Session, createdAt: int)
    requires Ready(s) && s.employee.value.points.None? && CartTotal(s.cart) > 0
    requires PointsOf(st.employees, s.employee.value.id).Some?
    ensures !CanProceed(s.cart, s.employee)
    ensures var r := Checkout(st, s, createdAt, Faults(false, false));
      && r.error.None?
      && r.store.orders == st.orders + [NewOrder(s, createdAt)]
      && PointsOf(r.store.employees, s.employee.value.id) == Some(None)
  {
  }

  /** The numeric points stored for `id`, if its document exists and holds a number. */
  function Balance(employees: seq<Employee>, id: string): (r: Option<int>)
    ensures r.Some? <==> PointsOf(employees, id).Some? && PointsOf(employees, id).value.Some?
    ensures r.Some? ==> PointsOf(employees, id) == Some(r)
  {
    match PointsOf(employees, id)
    case Some(Some(b)) => Some(b)
    case _ => None
  }

  /** The corrected checkout: the points are read from the employee document rather
      than from the page, a `NaN` balance is refused, and the order and the debit are
      one atomic write, so either both happen or neither does. */
  function CheckoutAtomic(st: Store, s: Session, createdAt: int, f: Faults): (r: Outcome)
    ensures !Ready(s) ==> r == Outcome(st, s, None)
    ensures r.error.Some? ==> r.store == st && r.session == s
    ensures r.error == Some(EmployeeNotFound) <==>
      Ready(s) && PointsOf(st.employees, s.employee.value.id).None?
    ensures r.error == Some(PointsNotANumber) <==>
      Ready(s) && PointsOf(st.employees, s.employee.value.id) == Some(None)
    ensures r.error == Some(InsufficientPoints) <==>
      Ready(s) && Balance(st.employees, s.employee.value.id).Some?
      && CartTotal(s.cart) > Balance(st.employees, s.employee.value.id).value
    ensures r.error != Some(OrderNotSaved) && r.error != Some(PointsNotSaved)
    ensures Ready(s) && r.error.None? ==>
      var emp := s.employee.value;
      && Balance(st.employees, emp.id).Some?
      && var left := Balance(st.employees, emp.id).value - CartTotal(s.cart);
      && r.store.orders == st.orders + [NewOrder(s, createdAt)]
      && PointsOf(r.store.employees, emp.id) == Some(Some(left)) && left >= 0
      && OnlyPointsOf(st.employees, r.store.employees, emp.id)
      && (forall other :: other != emp.id ==> PointsOf(r.store.employees, other) == PointsOf(st.employees, other))
      && r.store.users == st.users && r.store.settings == st.settings && r.store.products == st.products
      && r.session == s.(cart := [], employee := Some(emp.(points := Some(left))))
    ensures (&& Ready(s) && Balance(st.employees, s.employee.value.id).Some?
             && CartTotal(s.cart) <= Balance(st.employees, s.employee.value.id).value
             && !f.orderWriteFails && !f.pointsWriteFails) ==> r.error.None?
  {
    if !Ready(s) then Outcome(st, s, None)
    else
      var emp := s.employee.value;
      if PointsOf(st.employees, emp.id).None? then Outcome(st, s, Some(EmployeeNotFound))
      else if Balance(st.employees, emp.id).None? then Outcome(st, s, Some(PointsNotANumber))
      else
        var balance := Balance(st.employees, emp.id).value;
        var total := CartTotal(s.cart);
        if total > balance then Outcome(st, s, Some(InsufficientPoints))
        else if f.orderWriteFails || f.pointsWriteFails then Outcome(st, s, Some(TransactionFailed))
        else
          Commit(st, s, createdAt, Some(balance - total))
  }

  function OrderTotal(o: Order): int {
    o.totalPoints
  }

  /** The ledger property of the corrected checkout: whatever the page believes the
      points to be and whichever writes fail, a non-negative balance stays
      non-negative, and what is left plus what the new orders cost is what there was. */
  lemma {:induction false} AtomicConserves(st: Store, s: Session, createdAt: int, f: Faults, b: int)
    requires Ready(s) && Balance(st.employees, s.employee.value.id) == Some(b) && b >= 0
    ensures var r := CheckoutAtomic(st, s, createdAt, f);
      var id := s.employee.value.id;
      && |r.store.orders| >= |st.orders| && r.store.orders[..|st.orders|] == st.orders
      && Balance(r.store.employees, id).Some? && Balance(r.store.employees, id).value >= 0
      && Balance(r.store.employees, id).value + Seqs.Sum(r.store.orders[|st.orders|..], OrderTotal) == b
      && forall other :: other != id ==> PointsOf(r.store.employees, other) == PointsOf(st.employees, other)
  {
    var r := CheckoutAtomic(st, s, createdAt, f);
    var n := |st.orders|;
    if r.error.Some? {
      assert r.store.orders[n..] == [];
    } else {
      var o := NewOrder(s, createdAt);
      assert r.store.orders[..n] == st.orders;
      assert r.store.orders[n..] == [o];
      Seqs.SumCons(o, [], OrderTotal);
    }
  }

  /** A concrete page: one employee with 100 points, one product costing 80 in the cart. */
  const Gift: Product := Product("p1", "Gift", "", 80, 5, "", "", "active")
  const Acme: User := User("c1", "corporate", "Acme", "", "", "acme", "approved")
  const Bob: Employee := Employee("e1", "bob@example.com", "Bob", Some(100), "c1")
  const NoAddress: ShippingAddress := ShippingAddress("", "", "", "", "", "", "", "")
  const BobTab: Session := Session(Some(Bob), Some(Acme), [CartItem(Gift, 1)], NoAddress)
  const BobStore: Store := Store([Acme], [], [Gift], [Bob], [])

  lemma {:induction false} BobCartCosts80()
    ensures CartTotal(BobTab.cart) == 80
  {
    assert BobTab.cart[1..] == [];
  }

  /** Two tabs loaded with 100 points each check out an 80-point cart: both pass the
      guard on their copy, both orders are written, and the second write of the
      points repeats the first, leaving 20. 160 points of goods out of 100. */
  lemma {:induction false} StaleBalanceOverspends()
    ensures var r1 := Checkout(BobStore, BobTab, 1, Faults(false, false));
      var r2 := Checkout(r1.store, BobTab, 2, Faults(false, false));
      && r1.error.None? && r2.error.None?
      && |r2.store.orders| == 2
      && r2.store.orders[0].totalPoints + r2.store.orders[1].totalPoints == 160
      && PointsOf(r2.store.employees, "e1") == Some(Some(20))
  {
    BobCartCosts80();
    var r1 := Checkout(BobStore, BobTab, 1, Faults(false, false));
    assert PointsOf(BobStore.employees, "e1") == Some(Some(100));
    assert PointsOf(r1.store.employees, "e1") == Some(Some(20));
  }

  /** The same two tabs against the corrected checkout: the second is refused and 20
      points are left after one order of 80. */
  lemma {:induction false} AtomicRefusesSecondTab()
    ensures var r1 := CheckoutAtomic(BobStore, BobTab, 1, Faults(false, false));
      var r2 := CheckoutAtomic(r1.store, BobTab, 2, Faults(false, false));
      && r1.error.None? && r2.error == Some(InsufficientPoints)
      && |r2.store.orders| == 1
      && PointsOf(r2.store.employees, "e1") == Some(Some(20))
  {
    BobCartCosts80();
    var r1 := CheckoutAtomic(BobStore, BobTab, 1, Faults(false, false));
    assert PointsOf(BobStore.employees, "e1") == Some(Some(100));
    assert Balance(r1.store.employees, "e1") == Some(20);
  }

  /** When the points write fails after the order write, the order stays and the
      points are untouched: 80 points of goods for nothing. */
  lemma {:induction false} FailedDebitKeepsOrder()
    ensures var r := Checkout(BobStore, BobTab, 1, Faults(false, true));
      && r.error == Some(PointsNotSaved)
      && r.store.orders == [NewOrder(BobTab, 1)] && r.store.orders[0].totalPoints == 80
      && PointsOf(r.store.employees, "e1") == Some(Some(100))
  {
    BobCartCosts80();
    assert PointsOf(BobStore.employees, "e1") == Some(Some(100));
  }

  /** The corrected checkout writes nothing when either half of its one write
      fails: no order without the debit, no debit without the order. */
  lemma {:induction false} AtomicFailureWritesNothing(st: Store, s: Session, createdAt: int, f: Faults)
    requires f.orderWriteFails || f.pointsWriteFails
    ensures CheckoutAtomic(st, s, createdAt, f).store == st
  {
  }

  /** The corrected checkout refuses an employee whose stored points are `NaN` and
      writes nothing. */
  lemma {:induction false} AtomicRefusesNanPoints(st: Store, s: Session, createdAt: int, f: Faults)
    requires Ready(s) && PointsOf(st.employees, s.employee.value.id) == Some(None)
    ensures CheckoutAtomic(st, s, createdAt, f) == Outcome(st, s, Some(PointsNotANumber))
  {
  }
}

=== FILE: text.dfy ===
/** The JavaScript string built-ins the handlers rely on: `trim`, `toLowerCase`,
    `split` with a one-character separator, and `parseInt` with the default radix. */
module Text {
  import opened Wrappers

  /** The ECMAScript WhiteSpace and LineTerminator code points, which
      `String.prototype.trim` strips from both ends. */
  predicate IsSpace(c: char) {
    || c == '\t' || c == '\n' || c == '\U{000B}' || c == '\U{000C}' || c == '\r'
    || c == ' ' || c == '\U{00A0}' || c == '\U{1680}'
    || ('\U{2000}' <= c <= '\U{200A}')
    || c == '\U{2028}' || c == '\U{2029}' || c == '\U{202F}' || c == '\U{205F}'
    || c == '\U{3000}' || c == '\U{FEFF}'
  }

  predicate AllSpace(s: string) {
    forall i :: 0 <= i < |s| ==> IsSpace(s[i])
  }

  /** No white space at either end. */
  predicate Trimmed(s: string) {
    |s| == 0 || (!IsSpace(s[0]) && !IsSpace(s[|s| - 1]))
  }

  /** How many white-space characters `s` starts with. */
  function LeadingSpace(s: string): (n: nat)
    ensures n <= |s|
    ensures forall i :: 0 <= i < n ==> IsSpace(s[i])
    ensures n < |s| ==> !IsSpace(s[n])
  {
    if |s| > 0 && IsSpace(s[0]) then 1 + LeadingSpace(s[1..]) else 0
  }

  /** How many white-space characters `s` ends with. */
  function TrailingSpace(s: string): (n: nat)
    ensures n <= |s|
    ensures forall i :: |s| - n <= i < |s| ==> IsSpace(s[i])
    ensures n < |s| ==> !IsSpace(s[|s| - 1 - n])
  {
    if |s| > 0 && IsSpace(s[|s| - 1]) then 1 + TrailingSpace(s[..|s| - 1]) else 0
  }

  /** `s` without its leading white space, as `parseInt` skips it. */
  function TrimStart(s: string): (r: string)
    ensures |r| == 0 <==> AllSpace(s)
    ensures |r| == 0 || !IsSpace(r[0])
  {
    s[LeadingSpace(s)..]
  }

  /** `String.prototype.trim`: the part of `s` between its leading and its trailing
      white space, itself free of white space at both ends. */
  function Trim(s: string): (r: string)
    ensures Trimmed(r)
    ensures |r| == 0 <==> AllSpace(s)
    ensures var i := LeadingSpace(s);
      && i + |r| <= |s| && r == s[i..i + |r|]
      && forall k :: i + |r| <= k < |s| ==> IsSpace(s[k])
  {
    var i := LeadingSpace(s);
    if i == |s| then [] else s[i..|s| - TrailingSpace(s)]
  }

  /** Trimming a string that has no white space at its ends changes nothing. */
  lemma {:induction false} TrimOfTrimmed(s: string)
    requires Trimmed(s)
    ensures Trim(s) == s
  {
  }

  /** ASCII case folding, as `toLowerCase` does on ASCII text. */
  function LowerChar(c: char): (d: char)
    ensures IsSpace(d) <==> IsSpace(c)
  {
    if 'A' <= c <= 'Z' then (c as int - 'A' as int + 'a' as int) as char else c
  }

  function ToLower(s: string): (r: string)
    ensures |r| == |s|
    ensures forall i :: 0 <= i < |s| ==> r[i] == LowerChar(s[i])
  {
    seq(|s|, i requires 0 <= i < |s| => LowerChar(s[i]))
  }

  /** `s.split(sep)`: the maximal separator-free pieces, one more than the
      number of separators (so the empty string splits into one empty piece). */
  function Split(s: string, sep: char): (r: seq<string>)
    ensures |r| >= 1
    ensures forall i :: 0 <= i < |r| ==> sep !in r[i]
  {
    if |s| == 0 then [""]
    else
      var rest := Split(s[1..], sep);
      if s[0] == sep then [""] + rest
      else [[s[0]] + rest[0]] + rest[1..]
  }

  /** `parts.join(sep)`. */
  function Join(parts: seq<string>, sep: char): string
    requires |parts| >= 1
  {
    if |parts| == 1 then parts[0] else parts[0] + [sep] + Join(parts[1..], sep)
  }

  /** A join starts where its first piece starts. */
  lemma {:induction false} JoinFirst(parts: seq<string>, sep: char)
    requires |parts| >= 1 && |parts[0]| > 0
    ensures |Join(parts, sep)| > 0 && Join(parts, sep)[0] == parts[0][0]
  {
  }

  /** A join ends where its last piece ends. */
  lemma {:induction false} JoinLast(parts: seq<string>, sep: char)
    requires |parts| >= 1 && |parts[|parts| - 1]| > 0
    ensures var j := Join(parts, sep); var last := parts[|parts| - 1];
      |j| > 0 && j[|j| - 1] == last[|last| - 1]
  {
    if |parts| > 1 {
      JoinLast(parts[1..], sep);
    }
  }

  /** Splitting loses nothing: joining the pieces restores the input. */
  lemma {:induction false} JoinSplit(s: string, sep: char)
    ensures Join(Split(s, sep), sep) == s
  {
    if |s| > 0 {
      var rest := Split(s[1..], sep);
      JoinSplit(s[1..], sep);
      if s[0] != sep && |rest| > 1 {
        assert rest == [rest[0]] + rest[1..];
      }
    }
  }

  /** Splitting a join of separator-free pieces gives the pieces back. */
  lemma {:induction false} SplitJoin(parts: seq<string>, sep: char)
    requires |parts| >= 1
    requires forall i :: 0 <= i < |parts| ==> sep !in parts[i]
    ensures Split(Join(parts, sep), sep) == parts
  {
    if |parts| == 1 {
      SplitNoSeparator(parts[0], sep);
    } else {
      SplitJoin(parts[1..], sep);
      SplitPrefix(parts[0], Join(parts[1..], sep), sep);
    }
  }

  lemma {:induction false} SplitNoSeparator(s: string, sep: char)
    requires sep !in s
    ensures Split(s, sep) == [s]
  {
    if |s| > 0 {
      assert s[0] != sep;
      assert sep !in s[1..] by {
        assert forall j :: 0 <= j < |s[1..]| ==> s[1..][j] == s[j + 1];
      }
      SplitNoSeparator(s[1..], sep);
      assert [s[0]] + s[1..] == s;
    }
  }

  /** A separator-free head followed by a separator becomes its own first piece. */
  lemma {:induction false} SplitPrefix(a: string, b: string, sep: char)
    requires sep !in a
    ensures Split(a + [sep] + b, sep) == [a] + Split(b, sep)
  {
    if |a| == 0 {
      assert a + [sep] + b == [sep] + b;
      assert ([sep] + b)[1..] == b;
    } else {
      assert (a + [sep] + b)[1..] == a[1..] + [sep] + b;
      SplitPrefix(a[1..], b, sep);
      assert [a[0]] + a[1..] == a;
    }
  }

  predicate IsDigit(c: char) {
    '0' <= c <= '9'
  }

  predicate AllDigits(s: string) {
    forall i :: 0 <= i < |s| ==> IsDigit(s[i])
  }

  /** The longest prefix of `s` made of decimal digits. */
  function LeadingDigits(s: string): (r: string)
    ensures |r| <= |s| && r == s[..|r|]
    ensures AllDigits(r)
    ensures |r| == |s| || !IsDigit(s[|r|])
  {
    if |s| > 0 && IsDigit(s[0]) then
      var r := LeadingDigits(s[1..]);
      assert [s[0]] + s[1..][..|r|] == s[..|r| + 1];
      [s[0]] + r
    else []
  }

  /** The number a string of decimal digits denotes. */
  function DigitsValue(ds: string): nat
    requires AllDigits(ds)
  {
    if |ds| == 0 then 0
    else DigitsValue(ds[..|ds| - 1]) * 10 + (ds[|ds| - 1] as int - '0' as int)
  }

  /** The value of the leading run of digits of `b`; `None` when `b` does not
      start with a digit. */
  function ParseDigitRun(b: string): (r: Option<nat>)
    ensures r.Some? <==> |b| > 0 && IsDigit(b[0])
  {
    var ds := LeadingDigits(b);
    if |ds| == 0 then None else Some(DigitsValue(ds))
  }

  /** A run of digits read with a sign. */
  function Signed(negative: bool, digits: Option<nat>): (r: Option<int>)
    ensures r.Some? <==> digits.Some?
  {
    match digits
    case None => None
    case Some(v) => Some(if negative then -(v as int) else v as int)
  }

  /** `parseInt` after the leading white space is gone: an optional sign, then digits. */
  function ParseSigned(t: string): (r: Option<int>)
    ensures r.Some? ==> exists i :: 0 <= i < |t| && IsDigit(t[i])
  {
    if |t| > 0 && (t[0] == '-' || t[0] == '+') then
      var r := Signed(t[0] == '-', ParseDigitRun(t[1..]));
      assert r.Some? ==> IsDigit(t[1]);
      r
    else
      var r := Signed(false, ParseDigitRun(t));
      assert r.Some? ==> IsDigit(t[0]);
      r
  }

  /** `parseInt(s)`: skip leading white space, read an optional sign and then the
      longest run of decimal digits; `None` (JavaScript's `NaN`) when there is no digit. */
  function ParseInt(s: string): (r: Option<int>)
    ensures AllSpace(s) ==> r.None?
  {
    ParseSigned(TrimStart(s))
  }

  /** The decimal rendering of a natural number, without sign or leading zeros. */
  function ShowNat(n: nat): (r: string)
    ensures |r| >= 1 && AllDigits(r)
  {
    if n < 10 then [('0' as int + n) as char]
    else ShowNat(n / 10) + [('0' as int + n % 10) as char]
  }

  lemma {:induction false} DigitsValueShowNat(n: nat)
    ensures DigitsValue(ShowNat(n)) == n
  {
    if n >= 10 {
      var s := ShowNat(n);
      assert s[..|s| - 1] == ShowNat(n / 10);
      DigitsValueShowNat(n / 10);
    }
  }

  lemma {:induction false} LeadingDigitsOf(ds: string, rest: string)
    requires AllDigits(ds)
    requires |rest| == 0 || !IsDigit(rest[0])
    ensures LeadingDigits(ds + rest) == ds
  {
    if |ds| > 0 {
      assert (ds + rest)[1..] == ds[1..] + rest;
      LeadingDigitsOf(ds[1..], rest);
      assert [ds[0]] + ds[1..] == ds;
    } else {
      assert ds + rest == rest;
    }
  }

  lemma {:induction false} ParseDigitRunOf(ds: string, rest: string)
    requires |ds| >= 1 && AllDigits(ds)
    requires |rest| == 0 || !IsDigit(rest[0])
    ensures ParseDigitRun(ds + rest) == Some(DigitsValue(ds))
  {
    LeadingDigitsOf(ds, rest);
  }

  /** `parseInt` reads a leading run of digits up to the first non-digit. */
  lemma {:induction false} ParseDigits(ds: string, rest: string)
    requires |ds| >= 1 && AllDigits(ds)
    requires |rest| == 0 || !IsDigit(rest[0])
    ensures ParseInt(ds + rest) == Some(DigitsValue(ds))
  {
    var s := ds + rest;
    assert s[0] == ds[0];
    UnsignedDigits(s);
    ParseDigitRunOf(ds, rest);
  }

  lemma {:induction false} DigitIsNotSpace(c: char)
    requires IsDigit(c)
    ensures !IsSpace(c)
  {
  }

  /** Text that does not start with white space has none to skip. */
  lemma {:induction false} TrimStartUnchanged(s: string)
    requires |s| == 0 || !IsSpace(s[0])
    ensures TrimStart(s) == s
  {
  }

  /** Text that starts with a digit is read without skipping or sign handling. */
  lemma {:induction false} UnsignedDigits(s: string)
    requires |s| > 0 && IsDigit(s[0])
    ensures ParseInt(s) == ParseDigitRun(s)
  {
    DigitIsNotSpace(s[0]);
    TrimStartUnchanged(s);
  }

  /** `parseInt` reads back what `ShowNat` writes, whatever non-digit text follows. */
  lemma {:induction false} ParseShowNat(n: nat, rest: string)
    requires |rest| == 0 || !IsDigit(rest[0])
    ensures ParseInt(ShowNat(n) + rest) == Some(n)
  {
    ParseDigits(ShowNat(n), rest);
    DigitsValueShowNat(n);
  }

  /** The decimal rendering of an integer, with a leading `-` when negative. */
  function ShowInt(v: int): (r: string)
    ensures |r| >= 1 && !IsSpace(r[0]) && IsDigit(r[|r| - 1])
    ensures forall i :: 0 <= i < |r| ==> IsDigit(r[i]) || r[i] == '-'
  {
    if v < 0 then "-" + ShowNat(-v) else ShowNat(v)
  }

  /** The digit run of a rendered natural number is that number. */
  lemma {:induction false} ShowNatDigitRun(n: nat)
    ensures ParseDigitRun(ShowNat(n)) == Some(n)
  {
    var ds := ShowNat(n);
    ParseDigitRunOf(ds, []);
    assert ds + [] == ds;
    DigitsValueShowNat(n);
  }

  /** A minus sign followed by a run of digits reads as the negated run. */
  lemma {:induction false} ParseNegative(ds: string, v: nat)
    requires ParseDigitRun(ds) == Some(v)
    ensures ParseSigned("-" + ds) == Some(-(v as int))
  {
    var t := "-" + ds;
    assert t[0] == '-' && t[1..] == ds;
  }

  /** `parseInt` reads back what `ShowInt` writes. */
  lemma {:induction false} ParseShowInt(v: int)
    ensures ParseInt(ShowInt(v)) == Some(v)
  {
    if v < 0 {
      TrimStartUnchanged(ShowInt(v));
      ShowNatDigitRun(-v);
      ParseNegative(ShowNat(-v), -v);
    } else {
      ParseShowNat(v, []);
      assert ShowNat(v) + [] == ShowNat(v);
    }
  }
}

=== FILE: wrappers.dfy ===
/** Failure-carrying datatypes shared by every module of the model. */
module Wrappers {

  /** A value that may be absent; also stands for a JavaScript `undefined` field
      and, for numbers, for `NaN`. */
  datatype Option<+T> = None | Some(value: T) {
    function GetOr(default: T): T {
      match this
      case Some(v) => v
      case None => default
    }
  }

  /** The outcome of an operation that can fail with an error of type `E`. */
  datatype Result<+T, +E> = Ok(value: T) | Err(error: E)
}
